=== FILE: README.md ===
# Drone imagery: metadata fusion and georeferencing, modelled in Dafny

This project models two steps of the drone image pipeline.

**Metadata fusion** (`src/pipeline/smart_merge.py`, `run`) indexes the DJI image files
(`DJI_<id>...`) by the numeric ID in their names. When several files carry one ID, the
last JPEG wins, and otherwise the first file found stays. It then walks the MRK marker
table in order. Each marker whose truncated ID is in the index becomes one output record:

- the file's basename and path;
- the marker position and altitude;
- the timestamp in milliseconds;
- the platform roll, pitch and yaw read from the first 100000 bytes of that file.

Attitude is read from the `Flight...Degree` XMP tags, falling back to the `Gimbal...Degree`
tags when the flight value is 0.0. A failed number parse leaves the remaining values at 0.0.

**Georeferencing** (`src/core/georeference_images.py`) builds the field-of-view angle grid
of an image (`calculate_fov_angles`). It projects every pixel ray onto the ground around
the GPS position (`project_ray`, with the pitch angle clipped to ±1.5 rad and the offsets
rotated by the yaw, `rotate_coords`). It records the four image corners and derives four
ground control points (GCPs) from them. It names the `_final.tif` output and the temporary
`.vrt`. Rows whose image is missing are skipped. A failure in one row never affects the
others, and the verification table is written only when it has at least one row.

Layout:

- `wrappers.dfy` holds `Option`.
- `seqs.dfy` holds the regrouping of concatenations shared by the row-by-row tables.
- `path_text.dfy` holds Python's posix `os.path` and `str` operations that the core uses.
- `file_index.dfy` holds the name filter, `int()` and the ID index.
- `attitude_tags.dfy` holds the byte search and the attitude extraction.
- `smart_merge.dfy` holds the two loops of the fusion step and `run`.
- `georeference.dfy` holds the projection geometry, the corners and GCPs, the output names and the per-row loop of `run`.

The fusion `run` has two loops (`smart_merge.py` lines 20-27 and 34-71); the georeferencing `run` has one (`georeference_images.py` lines 44-99). Each loop is a Dafny method, proved equal to a left fold over its input, and the properties the code promises are proved about those folds.

The model keeps these conventions of the georeferencing code:

- The row's attitude is combined with the camera mounting as `t_pitch = cam_pitch + ATT_Pitch`, `t_roll = ATT_Roll` and `t_yaw = (ATT_Yaw + cam_yaw) % 360` (`georeference_images.py` lines 53-55), in `Georeference.RowPose`.
- The vertical ray angle `yv + total_p` is clipped to ±1.5 rad (lines 22-23), in `Georeference.ClipPitch`. The horizontal angle `xv + total_r` is not clipped.
- The field of view `h_fov` is a setting passed in by the caller (`Settings.hFov`); the code's default of 82.0 degrees is not built into the model.

## Model

| member | source | states |
|---|---|---|
| PathText.LastIndexOf | src/core/georeference_images.py:89 | `str.rfind(c)`: −1 or an index holding `c`, and no `c` after it |
| PathText.Basename | src/pipeline/smart_merge.py:21 | defined as the characters after the last '/'; contract stated by BasenameAfterLastSlash and BasenameIsLastComponent |
| PathText.BasenameAfterLastSlash | src/pipeline/smart_merge.py:21 | `os.path.basename(p)` is `p[p.rfind('/') + 1:]` |
| PathText.BasenameIsLastComponent | src/pipeline/smart_merge.py:21 | `os.path.basename` is a suffix of the path with no '/', and it is preceded by '/' unless it is the whole path |
| PathText.BasenameOfSuffix | src/pipeline/smart_merge.py:63 | a '/'-free suffix preceded by '/' (or equal to the path) is exactly the basename |
| PathText.UpTo | src/pipeline/smart_merge.py:24 | `split(c)[0]`: a prefix of the text without `c`, followed by `c` when shorter than the text |
| PathText.Lower | src/pipeline/smart_merge.py:25 | `lower()` keeps the length and folds each character |
| PathText.IsJpegName | src/pipeline/smart_merge.py:25 | defined as the lower-cased name ending in `.jpg` or `.jpeg`; used by FileIndex.Insert, whose contract states the JPEG preference |
| PathText.Stem | src/core/georeference_images.py:89 | `splitext(p)[0]` is a prefix of `p`. When something is removed, it starts with '.', holds no '/' and no further '.', and the stem keeps a non-dot character of the last component before it. When nothing is removed, the last component has no '.' after a non-dot character |
| PathText.Join | src/core/georeference_images.py:46 | `os.path.join(a, b)` ends with `b`; it is `b` when `b` is absolute, `a + b` when `a` is empty or ends in '/', and `a + "/" + b` otherwise |
| PathText.BasenameOfJoin | src/core/georeference_images.py:90 | joining a non-empty '/'-free name onto any directory gives back that name as basename |
| PathText.ReplaceTif | src/core/georeference_images.py:91 | `replace(".tif", ".vrt")` keeps the length; the rest of its contract is stated by the four lemmas below |
| PathText.ReplaceTifPointwise | src/core/georeference_images.py:91 | the first character is kept, and every character that changes is one of the rewrites 't'→'v', 'i'→'r', 'f'→'t' |
| PathText.ReplaceTifKeepsOthers | src/core/georeference_images.py:91 | a character that changes lies inside an occurrence of ".tif" in the input; every other character is kept |
| PathText.ReplaceTifEveryOccurrence | src/core/georeference_images.py:91 | every ".tif" of the input becomes ".vrt" at the same position |
| PathText.ReplaceTifLeavesNone | src/core/georeference_images.py:91 | the result holds no ".tif" at any position |
| PathText.ReplaceTifSuffix | src/core/georeference_images.py:91 | a path ending in ".tif" is rewritten to one ending in ".vrt" |
| PathText.ReplaceTifSplits | src/core/georeference_images.py:91 | the replacement acts on the directory and the file name separately; it also rewrites ".tif" in directory names |
| FileIndex.IdText | src/pipeline/smart_merge.py:24 | `name.split('_')[1].split('.')[0]` is the longest prefix of the text after `DJI_` with no '_' or '.': it holds neither, and it stops only at one of them or at the end |
| FileIndex.TrimLeftSuffix | src/pipeline/smart_merge.py:24 | `int()`'s leading strip removes only whitespace and leaves a suffix |
| FileIndex.TrimRightPrefix | src/pipeline/smart_merge.py:24 | `int()`'s trailing strip removes only whitespace and leaves a prefix |
| FileIndex.TrimNoSpace | src/pipeline/smart_merge.py:24 | `int()`'s whitespace strip leaves text that has no whitespace at either end unchanged |
| FileIndex.ParseInt | src/pipeline/smart_merge.py:24 | defined as `int()` on text: strip, optional sign, then ASCII digits; contract stated by ParseIntValue, ParseIntAcceptsIntegers and the ParseIntOf lemmas |
| FileIndex.ParseIntValue | src/pipeline/smart_merge.py:24 | after the whitespace strip, a digit run gives its value, '+' followed by digits gives their value and '-' followed by digits gives minus their value |
| FileIndex.ParseIntAcceptsIntegers | src/pipeline/smart_merge.py:24 | `int()` succeeds if and only if the stripped text is a non-empty run of digits, or a sign followed by one |
| FileIndex.ParseIntOfAllDigits | src/pipeline/smart_merge.py:24 | `int()` of any non-empty digit string, leading zeros included, is its decimal value |
| FileIndex.ParseIntOfNegativeDigits | src/pipeline/smart_merge.py:24 | `int()` of '-' followed by any non-empty digit string is minus its decimal value |
| FileIndex.ParseIntOfMinus | src/pipeline/smart_merge.py:24 | proof step: a stripped text `-<digits>` parses to minus the value of the digits |
| FileIndex.DigitsValueOfNatDigits | src/pipeline/smart_merge.py:24 | the decimal value of the digits of `n` is `n` |
| FileIndex.ParseIntOfDigits | src/pipeline/smart_merge.py:24 | `int()` of the decimal digits of `n` gives `n` |
| FileIndex.ParseIntOfNonNumeric | src/pipeline/smart_merge.py:24 | `int()` raises on a text that starts with a character other than whitespace, a sign or a digit |
| FileIndex.FileId | src/pipeline/smart_merge.py:21-24 | defined as the ID of a path: `int()` of the ID text of an eligible basename, none otherwise; contract stated by ScanFilter, DjiFileIdText, DjiFileId and DjiNonNumeric |
| FileIndex.FileIdOfName | src/pipeline/smart_merge.py:21-24 | proof step: the ID of a path with an eligible basename is `int()` of that name's ID text |
| FileIndex.Scan | src/pipeline/smart_merge.py:21-25 | defined as the path with its ID and JPEG flag; contract stated by ScanFilter |
| FileIndex.ScanFilter | src/pipeline/smart_merge.py:21-22 | only a path whose basename starts with `DJI_` and has at least 8 characters yields an ID |
| FileIndex.DjiName | src/pipeline/smart_merge.py:22-24 | `DJI_<d><ext>` of at least 8 characters, with no '_', '.' or '/' in `d`, passes the filter, has no '/' and has `d` as ID text |
| FileIndex.DjiFileIdText | src/pipeline/smart_merge.py:21-24 | the ID of `<dir>/DJI_<d><ext>` is `int(d)` whenever `d` holds no '_', '.' or '/' |
| FileIndex.DjiFileId | src/pipeline/smart_merge.py:21-27 | `<dir>/DJI_<d><ext>` of at least 8 characters, for any non-empty digit string `d` (zero-padded or not), is indexed under the decimal value of `d` |
| FileIndex.DjiZeroPadded | src/pipeline/smart_merge.py:24 | `DJI_0042.JPG` is indexed under 42 |
| FileIndex.DjiNonNumeric | src/pipeline/smart_merge.py:24-27 | a `DJI_` name whose ID text starts with a letter or other non-numeric character (as in `DJI_ABCD.JPG`) gets no ID, so the loop skips it |
| FileIndex.DjiIdText | src/pipeline/smart_merge.py:24 | the ID text of `DJI_<d><.ext>` is exactly `d` when `d` holds no '_' or '.' |
| FileIndex.Insert | src/pipeline/smart_merge.py:25-26 | a path without an ID leaves the index unchanged; a new ID is added; an existing entry is replaced only by a JPEG; other entries are kept |
| FileIndex.IndexSpec | src/pipeline/smart_merge.py:20-27 | defined as IndexOf of the scanned paths; contract stated by SmartMerge.BuildIndex and the IndexOf lemmas |
| FileIndex.IndexOf | src/pipeline/smart_merge.py:20-27 | defined as the fold of the insertion over scanned paths; contract stated by IndexKeys, IndexEntriesFromFiles, IndexPrefersLastJpeg and IndexKeepsFirstNonJpeg |
| FileIndex.IndexSpecSnoc | src/pipeline/smart_merge.py:20-27 | proof step for the loop: visiting one more path applies one guarded insertion |
| FileIndex.ScanAllAt | src/pipeline/smart_merge.py:20-21 | proof step: the i-th scan is the scan of the i-th path |
| FileIndex.IndexKeys | src/pipeline/smart_merge.py:20-27 | an ID is in the index if and only if some file carries it |
| FileIndex.IndexEntriesFromFiles | src/pipeline/smart_merge.py:20-27 | every entry of the index is the path of a file carrying that ID |
| FileIndex.IndexPrefersLastJpeg | src/pipeline/smart_merge.py:25-26 | with a JPEG among the files of an ID, the index keeps the last such JPEG |
| FileIndex.IndexKeepsFirstNonJpeg | src/pipeline/smart_merge.py:25-26 | with no JPEG among the files of an ID, the index keeps the first file |
| AttitudeTags.Ascii | src/pipeline/smart_merge.py:52 | encoding a tag keeps its length, and each ASCII character becomes the byte of its code point |
| AttitudeTags.Pattern | src/pipeline/smart_merge.py:52 | the search pattern `<tag>="` is the encoded tag, then the byte of '=', then the byte of '"' |
| AttitudeTags.FindFrom | src/pipeline/smart_merge.py:52-54 | `bytes.find`: the first occurrence at or after the start, or -1 when there is none |
| AttitudeTags.FindFromFirst | src/pipeline/smart_merge.py:52 | an occurrence with none before it (from the start) is what `find` returns |
| AttitudeTags.NextQuote | src/pipeline/smart_merge.py:54 | `find(b'"', a)` is the first quote at or after `a` |
| AttitudeTags.TagSlice | src/pipeline/smart_merge.py:51-55 | defined as the bytes of the inner `find`; contract stated by TagSliceBetweenQuotes, TagSliceUnterminated and TagAbsentIsZero |
| AttitudeTags.TagValue | src/pipeline/smart_merge.py:51-56 | defined as `float()` of the slice, 0.0 when the tag is absent; contract stated by TagAbsentIsZero and FlightOverGimbal |
| AttitudeTags.TagSliceBetweenQuotes | src/pipeline/smart_merge.py:51-55 | for the first occurrence of the tag, the value is the bytes up to the next quote, and they hold no quote |
| AttitudeTags.TagSliceUnterminated | src/pipeline/smart_merge.py:54-55 | with no closing quote, `find` gives -1 and the slice stops one byte before the end |
| AttitudeTags.NoQuoteFrom | src/pipeline/smart_merge.py:54 | `find` reports -1 when no quote follows |
| AttitudeTags.FoundQuote | src/pipeline/smart_merge.py:54 | a quote position that `find` reports is in range and holds a quote |
| AttitudeTags.TagAbsentIsZero | src/pipeline/smart_merge.py:53-56 | an absent tag reads as 0.0 |
| AttitudeTags.FlightOrGimbal | src/pipeline/smart_merge.py:57-59 | a parse failure of the flight tag aborts the read |
| AttitudeTags.FlightOverGimbal | src/pipeline/smart_merge.py:57-59 | a non-zero flight value wins; an absent or 0.0 flight value falls back to the gimbal tag |
| AttitudeTags.ExtractAttitude | src/pipeline/smart_merge.py:47-60 | defined as roll, pitch and yaw read in that order, stopping at the first failure; contract stated by AttitudeValues, AttitudeDefaults and AttitudeAfterFailure |
| AttitudeTags.AttitudeValues | src/pipeline/smart_merge.py:57-59 | the roll tags' value lands in `roll`, the pitch tags' in `pitch` and the yaw tags' in `yaw`, each when no earlier read failed |
| AttitudeTags.AttitudeDefaults | src/pipeline/smart_merge.py:47-59 | with none of the six tags present, roll, pitch and yaw are all 0.0 |
| AttitudeTags.AttitudeAfterFailure | src/pipeline/smart_merge.py:47-60 | a failed parse leaves that value and every later one at 0.0 |
| AttitudeTags.Head | src/pipeline/smart_merge.py:50 | `f.read(100000)` gives exactly the first 100000 bytes, or the whole file when it is shorter |
| AttitudeTags.FileAttitude | src/pipeline/smart_merge.py:48-60 | defined as the attitude in the first 100000 bytes of a stored file, all 0.0 when it cannot be opened; contract stated by AttitudeIgnoresTail |
| AttitudeTags.AttitudeIgnoresTail | src/pipeline/smart_merge.py:49-50 | bytes past the first 100000 never change the attitude |
| SmartMerge.BuildIndex | src/pipeline/smart_merge.py:15-27 | the indexing loop produces the fold of the guarded insertion over the globbed paths |
| SmartMerge.TruncToInt | src/pipeline/smart_merge.py:35 | `int(float)` truncates toward zero |
| SmartMerge.Matched | src/pipeline/smart_merge.py:34-36 | the MRK rows kept are exactly those whose ID is indexed |
| SmartMerge.MatchedAppend | src/pipeline/smart_merge.py:34-36 | the filter keeps order and multiplicity: the matched rows of `a + b` are those of `a` followed by those of `b` |
| SmartMerge.MergeRow | src/pipeline/smart_merge.py:62-71 | defined as the output record of a matched row; contract stated by JoinRows |
| SmartMerge.JoinStep | src/pipeline/smart_merge.py:35-71 | defined as one row's record when its ID is indexed, nothing otherwise; contract stated by JoinSnoc and JoinRows |
| SmartMerge.JoinSpec | src/pipeline/smart_merge.py:34-71 | defined as the output after the join loop; contract stated by JoinAppend, JoinRows and JoinMarkers |
| SmartMerge.JoinMarkers | src/pipeline/smart_merge.py:34-71 | the join loop produces the row-by-row join of the MRK table against the index |
| SmartMerge.JoinSnoc | src/pipeline/smart_merge.py:34-71 | proof step for the loop: one more MRK row appends its record exactly when its ID is indexed |
| SmartMerge.JoinAppend | src/pipeline/smart_merge.py:34-71 | the join of `a + b` is the join of `a` followed by the join of `b` |
| SmartMerge.JoinRows | src/pipeline/smart_merge.py:34-71 | the output rows correspond one to one, in order, to the matched MRK rows. Each has the indexed path, its basename, the marker position, timestamp × 1000, and roll, pitch and yaw each taken from the same field of the attitude read from that path |
| SmartMerge.Run | src/pipeline/smart_merge.py:7-73 | no output when the MRK file is missing; otherwise the join of the MRK rows against the index of the globbed files |
| Georeference.Linspace | src/core/georeference_images.py:10-11 | `np.linspace` yields `n` values |
| Georeference.LinspaceAt | src/core/georeference_images.py:10-11 | proof step: the i-th value is the start plus i steps (the start when n is 1) |
| Georeference.LinspaceEnds | src/core/georeference_images.py:10-11 | the first value is the start and, for n ≥ 2, the last is the stop |
| Georeference.LinspaceEven | src/core/georeference_images.py:10-11 | consecutive values differ by (stop − start)/(n − 1) |
| Georeference.LinspaceSymmetric | src/core/georeference_images.py:10 | for n ≠ 1, `linspace(-a, a, n)` is antisymmetric about its middle |
| Georeference.Meshgrid | src/core/georeference_images.py:12 | `np.meshgrid(x, y)` gives two \|y\| × \|x\| grids |
| Georeference.CalculateFovAngles | src/core/georeference_images.py:7-12 | the angle grids are h × w; a zero width or height raises |
| Georeference.VFovRatio | src/core/georeference_images.py:8-9 | the vertical FOV is the horizontal FOV scaled by h / w |
| Georeference.FovGrid | src/core/georeference_images.py:7-12 | pixel (i, j) sees the j-th horizontal and i-th vertical angle; the angles run from −hfov/2 to +hfov/2 and from +vfov/2 to −vfov/2 |
| Georeference.AngleEnds | src/core/georeference_images.py:10-11 | the horizontal angles start at −hfov/2 and end at +hfov/2; the vertical ones start at +vfov/2 and end at −vfov/2 |
| Georeference.ClipPitch | src/core/georeference_images.py:23 | the clipped angle lies in [−1.5, 1.5] and an angle already inside is unchanged |
| Georeference.ClipNearest | src/core/georeference_images.py:23 | the clipped angle is the nearest point of [−1.5, 1.5] |
| Georeference.RotateCoords | src/core/georeference_images.py:14-17 | defined as the rotation by the cosine and sine of the yaw in radians; contract stated by RotateIdentity, RotatePreservesNorm and RotateInverse |
| Georeference.RotateIdentity | src/core/georeference_images.py:14-17 | a rotation with cos 1 and sin 0 changes nothing |
| Georeference.RotatePreservesNorm | src/core/georeference_images.py:14-17 | with cos² + sin² = 1 the rotation preserves the distance from the origin |
| Georeference.RotateInverse | src/core/georeference_images.py:14-17 | rotating by the opposite sine undoes the rotation |
| Georeference.Ground | src/core/georeference_images.py:21-32 | defined as one pixel's ground point; contract stated by GroundAtZeroAltitude, ProjectRayPixel and CornerGround |
| Georeference.ProjectRay | src/core/georeference_images.py:19-33 | the longitude and latitude grids are h × w; a zero width or height raises |
| Georeference.ProjectRayPixel | src/core/georeference_images.py:19-33 | each pixel's ground point is the projection of its own view angles, rotated by the yaw and converted at 111132 m per degree |
| Georeference.GroundAtZeroAltitude | src/core/georeference_images.py:25-32 | at altitude 0 every ray lands on the GPS position |
| Georeference.EffectiveYaw | src/core/georeference_images.py:55 | defined as `(ATT_Yaw + cam_yaw) % 360` with Python's floored modulo; contract stated by the three EffectiveYaw lemmas |
| Georeference.EffectiveYawRange | src/core/georeference_images.py:55 | `(ATT_Yaw + cam_yaw) % 360` lies in [0, 360) and differs from the sum by whole turns |
| Georeference.EffectiveYawKeepsTurn | src/core/georeference_images.py:55 | a sum already in [0, 360) is kept |
| Georeference.EffectiveYawPeriodic | src/core/georeference_images.py:55 | adding whole turns to the platform yaw does not change the effective yaw |
| Georeference.RowPose | src/core/georeference_images.py:53-60 | defined as the pose passed to `project_ray` (`ATT_Roll`, `cam_pitch + ATT_Pitch`, the effective yaw); contract stated by ProjectedRow, whose corners and GCPs come from the projection at this pose, and the EffectiveYaw lemmas |
| Georeference.BuildCorners | src/core/georeference_images.py:70-78 | defined as the `img_corners` record; contract stated by CornersAtFovExtremes, GcpsMatchCorners and ProjectedRow |
| Georeference.CornerGround | src/core/georeference_images.py:70-77 | a grid cell is the ground point of the angles of its column and row |
| Georeference.CornersAtFovExtremes | src/core/georeference_images.py:63-79 | TL, TR, BL and BR are the ground points of (∓hfov/2, ±vfov/2) |
| Georeference.BuildGcps | src/core/georeference_images.py:82-87 | defined as the four control points; contract stated by GcpsMatchCorners |
| Georeference.GcpsMatchCorners | src/core/georeference_images.py:70-87 | four GCPs at elevation 0, anchored at (0.5, 0.5), (w − 0.5, 0.5), (0.5, h − 0.5) and (w − 0.5, h − 0.5), carrying the ground positions of those corner pixels and agreeing with TL, TR, BL, BR |
| Georeference.OutName | src/core/georeference_images.py:89 | defined as the stem plus `_final.tif`; contract stated by OutputNames |
| Georeference.OutPath | src/core/georeference_images.py:90 | defined as the output directory joined with the output name; contract stated by OutputNames |
| Georeference.VrtPath | src/core/georeference_images.py:91 | defined as the output path with ".tif" replaced; contract stated by OutputNames, FinalPathNames and VrtRewritesDirectory |
| Georeference.EndsWithTrans | src/core/georeference_images.py:89-90 | proof step: a suffix of a suffix is a suffix |
| Georeference.FinalPathNames | src/core/georeference_images.py:91 | a `_final.tif` path maps to a `.vrt` path of the same length that differs from it |
| Georeference.OutputNames | src/core/georeference_images.py:89-91 | the output ends in `_final.tif`; the VRT path has the same length, ends in `.vrt` and differs from the output path |
| Georeference.VrtRewritesDirectory | src/core/georeference_images.py:90-91 | the VRT path is the output directory and the name, each with `.tif` replaced |
| Georeference.ProcessRow | src/core/georeference_images.py:45-99 | defined as the loop body for one row; contract stated by RowRecorded and ProjectedRow |
| Georeference.CornerTable | src/core/georeference_images.py:42-79 | defined as `corner_data` after the loop; contract stated by Run, TablesAppend, CornersIgnoreGdal and WrittenHaveCorners |
| Georeference.Written | src/core/georeference_images.py:89-94 | defined as the GeoTIFFs written by the loop, in order; contract stated by Run, TablesAppend and WrittenHaveCorners |
| Georeference.TablesSnoc | src/core/georeference_images.py:44-99 | proof step for the loop: one more row adds exactly its corner record and its GeoTIFF, if any |
| Georeference.Run | src/core/georeference_images.py:37-104 | the loop yields the corner records and GeoTIFFs of the rows in order; the table is written if and only if it has rows |
| Georeference.TablesAppend | src/core/georeference_images.py:44-99 | rows are processed independently: the tables of `a + b` are those of `a` followed by those of `b` |
| Georeference.RowRecorded | src/core/georeference_images.py:45-79 | a missing image is skipped; a row is recorded if and only if its image exists, GDAL opens it and its size is non-zero |
| Georeference.CornersIgnoreGdal | src/core/georeference_images.py:79-99 | GDAL failures never change the corner table, since each record is appended before GDAL runs |
| Georeference.ProjectedRow | src/core/georeference_images.py:50-96 | a recorded row's corner record and GCPs are BuildCorners and BuildGcps of the projection at RowPose with the raster's width and height; its GeoTIFF is written if and only if GDAL succeeds; the record carries the file name and the GPS centre |
| Georeference.WrittenHaveCorners | src/core/georeference_images.py:44-99 | there are no more GeoTIFFs than corner records, and no more corner records than rows |

## Left out

- The other pipeline steps are not part of this model: `src/pipeline/process_metadata.py` (column renaming, sorting), `src/pipeline/kalman_smoother.py`, `src/pipeline/analysis_report.py`, `main.py` and the mosaic.
- File system access is replaced by parameters:
  - globbing becomes the list of paths;
  - `os.path.exists` on the MRK file becomes a boolean;
  - file contents become a map from path to bytes;
  - the image files and GDAL become a `Disk` value (which paths exist, what GDAL opens, where `Translate`/`Warp` raise).
- GDAL may report a failure by raising or by returning `None`; either way no GeoTIFF results, and the row keeps its corner record. The model records only that outcome.
- The existence check on the VRT and its removal, `os.makedirs` and the printed messages change nothing the model tracks, and are not modelled.
- CSV reading and writing are not modelled. The tables are sequences of records. The column renaming between the two steps (`GPSLatitude` → `GPS_Latitude`) happens in a step outside the model.
- `DateTimeOriginal` is not modelled: the timestamp formatting with `datetime` and its fallback text.
- `float()` on the tag bytes is an abstract parameter `parse`, which gives `None` when Python raises. NaN and infinities are not modelled.
- Reals are exact, not IEEE doubles:
  - floating-point rounding is not captured;
  - `* 1000`, the FOV arithmetic, the projection and `% 360` are exact;
  - Python's `% 360` of a tiny negative sum rounds to 360.0 in doubles, but is below 360 here.
- `sin`, `cos` and `tan` are uninterpreted functions passed in (`Trig`). `np.radians` uses π written to double precision.
- Georeference.Ground: its requires `cos(lat) != 0` excludes the case where the longitude division would give an infinity. For the same reason, Georeference.ProcessRow treats that case as a failed row. numpy's cosine of a double never returns exactly 0, so that branch cannot occur in practice.
- Paths follow posix `os.path` only: separator '/', no drive letters.
- ASCII only:
  - `lower()` folds only ASCII letters;
  - `int()` accepts only ASCII digits;
  - `int()` strips only space, tab, newline, carriage return, vertical tab and form feed.
- `int(row['id'])` on a NaN or infinite ID raises and aborts the run; this is not modelled, since the reals have no NaN. A non-text `filename` (a NaN cell) is not modelled either.
- SmartMerge.Run: the glob order over the four extensions is whatever the caller passes in. Duplicates from case-insensitive file systems are modelled only as repeated paths in that list.
- AttitudeTags.Ascii: characters beyond ASCII are not UTF-8 encoded; only the ASCII tag names reach it.
- Table cells are modelled as real numbers: every cell that the model reads as a number is taken to be a finite number. The program behaves differently otherwise:
  - the cleaning step turns an unreadable GPS cell into NaN, and `project_ray` then records a corner row full of NaN;
  - a non-numeric `ATT_*` cell raises at lines 53-55 of `georeference_images.py`, and that row fails;
  - a non-numeric `timestamp` raises at line 70 of `smart_merge.py`, outside the `try`, and aborts the fusion run.

=== FILE: attitude_tags.dfy ===
/**
 * The attitude reader of `src/pipeline/smart_merge.py`: the DJI XMP tags are
 * found by byte search in the first bytes of an image file. Python's `float()`
 * applied to bytes is the abstract partial function `parse`: `None` stands for
 * the `ValueError` it raises.
 */
module AttitudeTags {
  import opened Wrappers

  newtype byte = x: int | 0 <= x < 256

  /** `f.read(100000)`: only this many leading bytes are searched for tags. */
  const ReadLimit: nat := 100000
  const Quote: byte := 34
  const EqualsSign: byte := 61

  /** `str.encode()` for the ASCII tag names (each character is one byte). */
  function Ascii(s: string): (r: seq<byte>)
    ensures |r| == |s|
    ensures forall i :: 0 <= i < |s| && s[i] as int < 128 ==> r[i] as int == s[i] as int
  {
    seq(|s|, i requires 0 <= i < |s| => (s[i] as int % 256) as byte)
  }

  /** The searched pattern `f'{t}="'.encode()`. */
  function Pattern(tag: string): (r: seq<byte>)
    ensures |r| == |tag| + 2 && r[..|tag|] == Ascii(tag)
    ensures r[|tag|] == EqualsSign && r[|tag| + 1] == Quote
  {
    Ascii(tag) + [EqualsSign, Quote]
  }

  predicate OccursAt(hay: seq<byte>, needle: seq<byte>, j: int) {
    0 <= j && j + |needle| <= |hay| && hay[j..j + |needle|] == needle
  }

  /** `bytes.find(needle, start)`: the first occurrence at or after `start`, or -1. */
  function FindFrom(hay: seq<byte>, needle: seq<byte>, start: nat): (r: int)
    decreases |hay| - start
    ensures r == -1 || (start <= r && OccursAt(hay, needle, r))
    ensures forall j :: start <= j && (r == -1 || j < r) ==> !OccursAt(hay, needle, j)
  {
    if start + |needle| > |hay| then -1
    else if hay[start..start + |needle|] == needle then start
    else FindFrom(hay, needle, start + 1)
  }

  /**
   * The bytes `find(t)` hands to `float()`: from just after the first `t="` up to
   * the next `"`; `None` when the pattern is absent. With no closing quote the
   * slice `content[a:-1]` runs to the last byte, exclusive.
   */
  function TagSlice(content: seq<byte>, tag: string): Option<seq<byte>>
  {
    var pat := Pattern(tag);
    var s := FindFrom(content, pat, 0);
    if s == -1 then None
    else
      var a := s + |pat|;
      var e := FindFrom(content, [Quote], a);
      if e != -1 then Some(content[a..e])
      else if a < |content| then Some(content[a..|content| - 1])
      else Some([])
  }

  /** `find(t)`: 0.0 when the tag is absent, else the parsed value; `None` when `float()` raises. */
  function TagValue(content: seq<byte>, tag: string, parse: seq<byte> -> Option<real>): Option<real>
  {
    match TagSlice(content, tag)
    case None => Some(0.0)
    case Some(v) => parse(v)
  }

  /** The value of a present tag is exactly the bytes strictly between `t="` and the next quote. */
  lemma TagSliceBetweenQuotes(content: seq<byte>, tag: string, s: nat, e: nat)
    requires OccursAt(content, Pattern(tag), s)
    requires forall j :: 0 <= j < s ==> !OccursAt(content, Pattern(tag), j)
    requires s + |Pattern(tag)| <= e < |content| && content[e] == Quote
    requires forall k :: s + |Pattern(tag)| <= k < e ==> content[k] != Quote
    ensures TagSlice(content, tag) == Some(content[s + |Pattern(tag)|..e])
    ensures Quote !in content[s + |Pattern(tag)|..e]
  {
    FindFromFirst(content, Pattern(tag), 0, s);
    NextQuote(content, s + |Pattern(tag)|, e);
  }

  /** `find` returns the first occurrence at or after `start`. */
  lemma FindFromFirst(hay: seq<byte>, needle: seq<byte>, start: nat, j: nat)
    requires start <= j && OccursAt(hay, needle, j)
    requires forall i :: start <= i < j ==> !OccursAt(hay, needle, i)
    ensures FindFrom(hay, needle, start) == j
  {
  }

  /** `find(b'"', a)` is the position of the first quote at or after `a`. */
  lemma NextQuote(content: seq<byte>, a: nat, e: nat)
    requires a <= e < |content| && content[e] == Quote
    requires forall k :: a <= k < e ==> content[k] != Quote
    ensures FindFrom(content, [Quote], a) == e
  {
    assert OccursAt(content, [Quote], e) by { assert content[e..e + 1] == [content[e]]; }
    forall k | a <= k < e ensures !OccursAt(content, [Quote], k) {
      assert content[k..k + 1][0] == content[k];
    }
    FindFromFirst(content, [Quote], a, e);
  }

  /** An unterminated value runs up to, but excluding, the last byte read. */
  lemma TagSliceUnterminated(content: seq<byte>, tag: string, s: nat)
    requires OccursAt(content, Pattern(tag), s)
    requires forall j :: 0 <= j < s ==> !OccursAt(content, Pattern(tag), j)
    requires forall k :: s + |Pattern(tag)| <= k < |content| ==> content[k] != Quote
    ensures s + |Pattern(tag)| < |content| ==> TagSlice(content, tag) == Some(content[s + |Pattern(tag)|..|content| - 1])
    ensures s + |Pattern(tag)| == |content| ==> TagSlice(content, tag) == Some([])
  {
    NoQuoteFrom(content, s + |Pattern(tag)|);
  }

  /** `find(b'"', a)` is -1 when no quote follows position `a`. */
  lemma NoQuoteFrom(content: seq<byte>, a: nat)
    requires forall k :: a <= k < |content| ==> content[k] != Quote
    ensures FindFrom(content, [Quote], a) == -1
  {
    FoundQuote(content, a);
  }

  /** Where `find(b'"', a)` succeeds, it points at a quote. */
  lemma FoundQuote(content: seq<byte>, a: nat)
    ensures var r := FindFrom(content, [Quote], a); r != -1 ==> a <= r < |content| && content[r] == Quote
  {
    var r := FindFrom(content, [Quote], a);
    if r != -1 {
      assert content[r..r + 1][0] == content[r];
    }
  }

  /** An absent tag reads as 0.0. */
  lemma TagAbsentIsZero(content: seq<byte>, tag: string, parse: seq<byte> -> Option<real>)
    requires Absent(content, tag)
    ensures TagSlice(content, tag) == None
    ensures TagValue(content, tag, parse) == Some(0.0)
  {
  }

  datatype Attitude = Attitude(roll: real, pitch: real, yaw: real)

  /** `find(flight) or find(gimbal)`: the gimbal tag is consulted only when the flight value is 0.0. */
  function FlightOrGimbal(content: seq<byte>, flight: string, gimbal: string, parse: seq<byte> -> Option<real>): (r: Option<real>)
    ensures TagValue(content, flight, parse).None? ==> r.None?
  {
    match TagValue(content, flight, parse)
    case None => None
    case Some(x) => if x != 0.0 then Some(x) else TagValue(content, gimbal, parse)
  }

  /**
   * The `try` block: roll, then pitch, then yaw; a `float()` failure abandons the
   * block and leaves every attitude value not yet assigned at its 0.0 default.
   */
  function ExtractAttitude(content: seq<byte>, parse: seq<byte> -> Option<real>): Attitude
  {
    match FlightOrGimbal(content, "FlightRollDegree", "GimbalRollDegree", parse)
    case None => Attitude(0.0, 0.0, 0.0)
    case Some(roll) =>
      match FlightOrGimbal(content, "FlightPitchDegree", "GimbalPitchDegree", parse)
      case None => Attitude(roll, 0.0, 0.0)
      case Some(pitch) =>
        match FlightOrGimbal(content, "FlightYawDegree", "GimbalYawDegree", parse)
        case None => Attitude(roll, pitch, 0.0)
        case Some(yaw) => Attitude(roll, pitch, yaw)
  }

  /** The bytes `f.read(100000)` returns. */
  function Head(bytes: seq<byte>): (r: seq<byte>)
    ensures |r| <= ReadLimit && StartsWithBytes(bytes, r)
    ensures |bytes| <= ReadLimit ==> r == bytes
    ensures |bytes| > ReadLimit ==> r == bytes[..ReadLimit]
  {
    if |bytes| <= ReadLimit then bytes else bytes[..ReadLimit]
  }

  predicate StartsWithBytes(s: seq<byte>, prefix: seq<byte>) {
    |prefix| <= |s| && s[..|prefix|] == prefix
  }

  /** Attitude of a matched file; a file that cannot be opened keeps all three at 0.0. */
  function FileAttitude(store: map<string, seq<byte>>, path: string, parse: seq<byte> -> Option<real>): Attitude
  {
    if path in store then ExtractAttitude(Head(store[path]), parse) else Attitude(0.0, 0.0, 0.0)
  }

  /** Bytes after the first 100000 never influence the attitude read from a file. */
  lemma AttitudeIgnoresTail(store: map<string, seq<byte>>, path: string, rest: seq<byte>, parse: seq<byte> -> Option<real>)
    requires path in store && |store[path]| >= ReadLimit
    ensures FileAttitude(store[path := store[path] + rest], path, parse) == FileAttitude(store, path, parse)
  {
    var b := store[path];
    assert (b + rest)[..ReadLimit] == b[..ReadLimit];
  }

  /** The tag does not occur anywhere in the bytes read. */
  ghost predicate Absent(content: seq<byte>, tag: string) {
    forall j :: !OccursAt(content, Pattern(tag), j)
  }

  /** With none of the six tags in the bytes read, the attitude stays at its defaults. */
  lemma AttitudeDefaults(content: seq<byte>, parse: seq<byte> -> Option<real>)
    requires Absent(content, "FlightRollDegree") && Absent(content, "GimbalRollDegree")
    requires Absent(content, "FlightPitchDegree") && Absent(content, "GimbalPitchDegree")
    requires Absent(content, "FlightYawDegree") && Absent(content, "GimbalYawDegree")
    ensures ExtractAttitude(content, parse) == Attitude(0.0, 0.0, 0.0)
  {
    TagAbsentIsZero(content, "FlightRollDegree", parse);
    TagAbsentIsZero(content, "GimbalRollDegree", parse);
    TagAbsentIsZero(content, "FlightPitchDegree", parse);
    TagAbsentIsZero(content, "GimbalPitchDegree", parse);
    TagAbsentIsZero(content, "FlightYawDegree", parse);
    TagAbsentIsZero(content, "GimbalYawDegree", parse);
  }

  /** A non-zero flight value wins over the gimbal tag; an absent or zero one falls back to it. */
  lemma FlightOverGimbal(content: seq<byte>, flight: string, gimbal: string, parse: seq<byte> -> Option<real>)
    ensures TagSlice(content, flight).None? ==> FlightOrGimbal(content, flight, gimbal, parse) == TagValue(content, gimbal, parse)
    ensures forall v :: TagSlice(content, flight) == Some(v) && parse(v).Some? && parse(v).value != 0.0 ==>
      FlightOrGimbal(content, flight, gimbal, parse) == parse(v)
    ensures forall v :: TagSlice(content, flight) == Some(v) && parse(v) == Some(0.0) ==>
      FlightOrGimbal(content, flight, gimbal, parse) == TagValue(content, gimbal, parse)
  {
  }

  /** A failed parse leaves the values that come after it at 0.0. */
  lemma AttitudeAfterFailure(content: seq<byte>, parse: seq<byte> -> Option<real>)
    ensures FlightOrGimbal(content, "FlightRollDegree", "GimbalRollDegree", parse).None? ==>
      ExtractAttitude(content, parse) == Attitude(0.0, 0.0, 0.0)
    ensures FlightOrGimbal(content, "FlightPitchDegree", "GimbalPitchDegree", parse).None? ==>
      ExtractAttitude(content, parse).pitch == 0.0 && ExtractAttitude(content, parse).yaw == 0.0
    ensures FlightOrGimbal(content, "FlightYawDegree", "GimbalYawDegree", parse).None? ==>
      ExtractAttitude(content, parse).yaw == 0.0
  {
  }

  /**
   * Each value read lands in its own field: the roll tags give `roll`, the
   * pitch tags `pitch` and the yaw tags `yaw`, as long as no earlier read failed.
   */
  lemma AttitudeValues(content: seq<byte>, parse: seq<byte> -> Option<real>)
    ensures var roll := FlightOrGimbal(content, "FlightRollDegree", "GimbalRollDegree", parse);
      var pitch := FlightOrGimbal(content, "FlightPitchDegree", "GimbalPitchDegree", parse);
      var yaw := FlightOrGimbal(content, "FlightYawDegree", "GimbalYawDegree", parse);
      var att := ExtractAttitude(content, parse);
      && (roll.Some? ==> att.roll == roll.value)
      && (roll.Some? && pitch.Some? ==> att.pitch == pitch.value)
      && (roll.Some? && pitch.Some? && yaw.Some? ==> att.yaw == yaw.value)
  {
  }
}

=== FILE: file_index.dfy ===
/**
 * The file index of `src/pipeline/smart_merge.py`: which globbed paths carry a
 * DJI image ID, and which path the index keeps for each ID.
 */
module FileIndex {
  import opened Wrappers
  import opened PathText

  /** Length below which a `DJI_` name is ignored. */
  const MinNameLength: nat := 8

  /** The name filter: `name.startswith("DJI_") and len(name) >= 8`. */
  predicate Eligible(name: string) {
    StartsWith(name, "DJI_") && |name| >= MinNameLength
  }

  /**
   * `name.split('_')[1].split('.')[0]` for a name that starts with `DJI_`:
   * the text after the first '_' up to the next '_' and then up to the first '.'.
   */
  function IdText(name: string): (r: string)
    requires StartsWith(name, "DJI_")
    ensures '_' !in r && '.' !in r
    ensures StartsWith(name[4..], r)
    ensures |r| < |name| - 4 ==> name[4 + |r|] == '_' || name[4 + |r|] == '.'
  {
    UpTo(UpTo(name[4..], '_'), '.')
  }

  /** Whitespace that Python's `int()` ignores around the digits (ASCII part). */
  predicate IsSpace(c: char) {
    c == ' ' || c == '\t' || c == '\n' || c == '\r' || c as int == 11 || c as int == 12
  }

  predicate IsDigit(c: char) {
    '0' <= c <= '9'
  }

  predicate AllDigits(s: string) {
    forall i :: 0 <= i < |s| ==> IsDigit(s[i])
  }

  /** `lstrip()`: drops the leading whitespace. */
  function TrimLeft(s: string): (r: string)
    ensures |r| <= |s|
    ensures |r| > 0 ==> !IsSpace(r[0])
  {
    if |s| > 0 && IsSpace(s[0]) then TrimLeft(s[1..]) else s
  }

  /** `rstrip()`: drops the trailing whitespace. */
  function TrimRight(s: string): (r: string)
    ensures |r| <= |s|
    ensures |r| > 0 ==> !IsSpace(r[|r| - 1])
  {
    if |s| > 0 && IsSpace(s[|s| - 1]) then TrimRight(s[..|s| - 1]) else s
  }

  /** What `lstrip()` keeps is a suffix of the text, and everything it drops is whitespace. */
  lemma {:induction false} TrimLeftSuffix(s: string)
    ensures EndsWith(s, TrimLeft(s))
    ensures forall i :: 0 <= i < |s| - |TrimLeft(s)| ==> IsSpace(s[i])
  {
    if |s| > 0 && IsSpace(s[0]) {
      TrimLeftSuffix(s[1..]);
      var r := TrimLeft(s);
      assert s[|s| - |r|..] == s[1..][|s| - 1 - |r|..];
      forall i | 1 <= i < |s| - |r| ensures IsSpace(s[i]) {
        assert s[i] == s[1..][i - 1];
      }
    }
  }

  /** What `rstrip()` keeps is a prefix of the text, and everything it drops is whitespace. */
  lemma {:induction false} TrimRightPrefix(s: string)
    ensures StartsWith(s, TrimRight(s))
    ensures forall i :: |TrimRight(s)| <= i < |s| ==> IsSpace(s[i])
  {
    if |s| > 0 && IsSpace(s[|s| - 1]) {
      var init := s[..|s| - 1];
      TrimRightPrefix(init);
      var r := TrimRight(s);
      assert s[..|r|] == init[..|r|];
      forall i | |r| <= i < |s| - 1 ensures IsSpace(s[i]) {
        assert s[i] == init[i];
      }
    }
  }

  /** Value of a string of decimal digits. */
  function DigitsValue(d: string): nat
    requires AllDigits(d)
  {
    if |d| == 0 then 0
    else DigitsValue(d[..|d| - 1]) * 10 + (d[|d| - 1] as int - '0' as int)
  }

  /**
   * Python's `int(text)` on a `str`: surrounding whitespace, an optional sign and
   * at least one decimal digit; anything else raises (`None`).
   */
  function ParseInt(text: string): Option<int>
  {
    var t := TrimRight(TrimLeft(text));
    if StartsWith(t, "-") then
      match Unsigned(t[1..])
      case None => None
      case Some(v) => Some(-v)
    else if StartsWith(t, "+") then Unsigned(t[1..])
    else Unsigned(t)
  }

  /** The digits after the optional sign: at least one, and nothing else. */
  function Unsigned(body: string): Option<int>
  {
    if |body| > 0 && AllDigits(body) then Some(DigitsValue(body) as int) else None
  }

  /** Text without whitespace at either end is left as it is by the trimming. */
  lemma TrimNoSpace(s: string)
    requires |s| > 0 && !IsSpace(s[0]) && !IsSpace(s[|s| - 1])
    ensures TrimRight(TrimLeft(s)) == s
  {
  }

  /** Python's `str(n)` for a natural number. */
  function NatDigits(n: nat): (r: string)
    ensures |r| > 0 && AllDigits(r)
  {
    if n < 10 then [('0' as int + n) as char]
    else NatDigits(n / 10) + [('0' as int + n % 10) as char]
  }

  lemma {:induction false} DigitsValueOfNatDigits(n: nat)
    ensures DigitsValue(NatDigits(n)) == n
  {
    if n >= 10 {
      var d := NatDigits(n);
      assert d[..|d| - 1] == NatDigits(n / 10);
      DigitsValueOfNatDigits(n / 10);
    }
  }

  /** `int(d)` of a non-empty run of decimal digits, leading zeros included, is its decimal value. */
  lemma ParseIntOfAllDigits(d: string)
    requires |d| > 0 && AllDigits(d)
    ensures ParseInt(d) == Some(DigitsValue(d) as int)
  {
    assert IsDigit(d[0]) && IsDigit(d[|d| - 1]);
    TrimNoSpace(d);
    assert d[..1] == [d[0]];
    assert d[0] != '-' && d[0] != '+';
  }

  /** `int("-" + d)` of a non-empty run of decimal digits is minus its decimal value. */
  lemma ParseIntOfNegativeDigits(d: string)
    requires |d| > 0 && AllDigits(d)
    ensures ParseInt("-" + d) == Some(-(DigitsValue(d) as int))
  {
    var m := "-" + d;
    assert TrimRight(TrimLeft(m)) == m by {
      assert m[0] == '-' && m[|m| - 1] == d[|d| - 1] && IsDigit(d[|d| - 1]);
      assert TrimLeft(m) == m;
    }
    assert StartsWith(m, "-") by { assert m[..1] == "-"; }
    assert m[1..] == d;
    ParseIntOfMinus(m, d);
  }

  /** A trimmed text that starts with '-' parses as minus the digits after it. */
  lemma ParseIntOfMinus(t: string, d: string)
    requires TrimRight(TrimLeft(t)) == t && StartsWith(t, "-") && t[1..] == d
    requires |d| > 0 && AllDigits(d)
    ensures ParseInt(t) == Some(-(DigitsValue(d) as int))
  {
  }

  /** `int(str(n)) == n`: the integer parser inverts decimal printing. */
  lemma ParseIntOfDigits(n: nat)
    ensures ParseInt(NatDigits(n)) == Some(n)
  {
    DigitsValueOfNatDigits(n);
    ParseIntOfAllDigits(NatDigits(n));
  }

  /**
   * The value `int()` gives, whatever whitespace surrounds the number: the
   * digits' value, unchanged after a '+', negated after a '-'.
   */
  lemma ParseIntValue(text: string)
    ensures var t := TrimRight(TrimLeft(text));
      && (|t| > 0 && AllDigits(t) ==> ParseInt(text) == Some(DigitsValue(t) as int))
      && (|t| > 1 && t[0] == '+' && AllDigits(t[1..]) ==> ParseInt(text) == Some(DigitsValue(t[1..]) as int))
      && (|t| > 1 && t[0] == '-' && AllDigits(t[1..]) ==> ParseInt(text) == Some(-(DigitsValue(t[1..]) as int)))
  {
    var t := TrimRight(TrimLeft(text));
    if |t| > 0 {
      assert t[..1] == [t[0]];
    }
  }

  /**
   * `int()` succeeds exactly on a stripped text that is a run of digits, with
   * an optional sign in front; on anything else it raises.
   */
  lemma ParseIntAcceptsIntegers(text: string)
    ensures var t := TrimRight(TrimLeft(text));
      ParseInt(text).Some? <==>
        (|t| > 0 && AllDigits(t)) || (|t| > 1 && (t[0] == '-' || t[0] == '+') && AllDigits(t[1..]))
  {
  }

  /** The ID a globbed path contributes to the index, if its name passes the filter and parses. */
  function FileId(path: string): Option<int> {
    var name := Basename(path);
    if Eligible(name) then ParseInt(IdText(name)) else None
  }

  /** What the indexing loop looks at in one globbed path: the path, its ID and whether it names a JPEG. */
  datatype Scanned = Scanned(path: string, id: Option<int>, jpeg: bool)

  function Scan(path: string): Scanned {
    Scanned(path, FileId(path), IsJpegName(Basename(path)))
  }

  /** The globbed paths as the indexing loop sees them, in order. */
  function ScanAll(files: seq<string>): (r: seq<Scanned>)
    ensures |r| == |files|
  {
    if files == [] then [] else ScanAll(files[..|files| - 1]) + [Scan(files[|files| - 1])]
  }

  /**
   * One step of the indexing loop, `if fid not in id_to_file or <JPEG>: id_to_file[fid] = fp`:
   * an ID is added when new, an existing entry is replaced only by a JPEG, and
   * a path without an ID leaves the table as it is.
   */
  function Insert(table: map<int, string>, c: Scanned): (r: map<int, string>)
    ensures c.id.None? ==> r == table
    ensures r.Keys == table.Keys + (if c.id.Some? then {c.id.value} else {})
    ensures c.id.Some? && (c.id.value !in table || c.jpeg) ==> r[c.id.value] == c.path
    ensures forall k :: k in table && (c.id != Some(k) || !c.jpeg) ==> r[k] == table[k]
  {
    if c.id.None? then table
    else if c.id.value !in table || c.jpeg then table[c.id.value := c.path]
    else table
  }

  /** The index after the loop has visited every scanned path, in order. */
  function IndexOf(cs: seq<Scanned>): map<int, string>
  {
    if cs == [] then map[]
    else Insert(IndexOf(cs[..|cs| - 1]), cs[|cs| - 1])
  }

  /** The index after the loop has visited every path of `files`, in order. */
  function IndexSpec(files: seq<string>): map<int, string>
  {
    IndexOf(ScanAll(files))
  }

  /** Visiting one more path applies one more guarded assignment. */
  lemma IndexSpecSnoc(files: seq<string>, fp: string)
    ensures IndexSpec(files + [fp]) == Insert(IndexSpec(files), Scan(fp))
  {
    var all := files + [fp];
    assert all[..|files|] == files;
    var cs := ScanAll(all);
    assert cs[..|cs| - 1] == ScanAll(files);
  }

  /** An ID is in the index exactly when some scanned path carries it. */
  lemma {:induction false} IndexKeys(cs: seq<Scanned>, k: int)
    ensures k in IndexOf(cs) <==> exists i :: 0 <= i < |cs| && cs[i].id == Some(k)
  {
    if cs != [] {
      var init := cs[..|cs| - 1];
      IndexKeys(init, k);
      if k in IndexOf(init) {
        var i :| 0 <= i < |init| && init[i].id == Some(k);
        assert cs[i] == init[i];
      }
      forall i | 0 <= i < |cs| - 1 ensures cs[i] == init[i] { }
    }
  }

  /** Every entry is the path of a scanned file that carries the entry's ID. */
  lemma {:induction false} IndexEntriesFromFiles(cs: seq<Scanned>, k: int)
    requires k in IndexOf(cs)
    ensures exists i :: 0 <= i < |cs| && cs[i].id == Some(k) && cs[i].path == IndexOf(cs)[k]
  {
    var init := cs[..|cs| - 1];
    var last := cs[|cs| - 1];
    if last.id == Some(k) && IndexOf(cs)[k] == last.path {
      assert cs[|cs| - 1] == last;
    } else {
      assert k in IndexOf(init);
      IndexEntriesFromFiles(init, k);
      var i :| 0 <= i < |init| && init[i].id == Some(k) && init[i].path == IndexOf(init)[k];
      assert cs[i] == init[i];
    }
  }

  /** The last JPEG carrying an ID wins, whatever else carries that ID. */
  lemma {:induction false} IndexPrefersLastJpeg(cs: seq<Scanned>, k: int, i: nat)
    requires i < |cs| && cs[i].id == Some(k) && cs[i].jpeg
    requires forall j :: i < j < |cs| && cs[j].id == Some(k) ==> !cs[j].jpeg
    ensures k in IndexOf(cs) && IndexOf(cs)[k] == cs[i].path
  {
    var init := cs[..|cs| - 1];
    if i < |cs| - 1 {
      forall j | i < j < |init| && init[j].id == Some(k) ensures !init[j].jpeg {
        assert init[j] == cs[j];
      }
      IndexPrefersLastJpeg(init, k, i);
      assert init[i] == cs[i];
    }
  }

  /** Without any JPEG for an ID, the first path carrying it stays in the index. */
  lemma {:induction false} IndexKeepsFirstNonJpeg(cs: seq<Scanned>, k: int, i: nat)
    requires i < |cs| && cs[i].id == Some(k)
    requires forall j :: 0 <= j < i ==> cs[j].id != Some(k)
    requires forall j :: 0 <= j < |cs| && cs[j].id == Some(k) ==> !cs[j].jpeg
    ensures k in IndexOf(cs) && IndexOf(cs)[k] == cs[i].path
  {
    var init := cs[..|cs| - 1];
    if i == |cs| - 1 {
      IndexKeys(init, k);
    } else {
      forall j | 0 <= j < i ensures init[j].id != Some(k) {
        assert init[j] == cs[j];
      }
      forall j | 0 <= j < |init| && init[j].id == Some(k) ensures !init[j].jpeg {
        assert init[j] == cs[j];
      }
      IndexKeepsFirstNonJpeg(init, k, i);
      assert init[i] == cs[i];
    }
  }

  /** Scanning keeps the order of the globbed paths and reads each one's ID and extension. */
  lemma {:induction false} ScanAllAt(files: seq<string>, i: nat)
    requires i < |files|
    ensures ScanAll(files)[i] == Scan(files[i])
  {
    if i < |files| - 1 {
      ScanAllAt(files[..|files| - 1], i);
    }
  }

  /** Only names that start with `DJI_` and are at least eight characters long carry an ID. */
  lemma ScanFilter(path: string)
    ensures Scan(path).id.Some? ==> StartsWith(Basename(path), "DJI_") && |Basename(path)| >= MinNameLength
    ensures Scan(path).path == path
  {
  }

  /**
   * A camera file `DJI_<digits><ext>` in any directory is indexed under the
   * decimal value of its digits; zero-padded digits such as `0042` included.
   */
  lemma DjiFileId(dir: string, d: string, ext: string)
    requires |d| > 0 && AllDigits(d)
    requires |ext| == 0 || ext[0] == '.'
    requires '/' !in ext
    requires 4 + |d| + |ext| >= MinNameLength
    ensures FileId(Join(dir, "DJI_" + d + ext)) == Some(DigitsValue(d) as int)
  {
    DigitsHaveNoSeparator(d);
    DjiFileIdText(dir, d, ext);
    ParseIntOfAllDigits(d);
  }

  /**
   * The ID of `<dir>/DJI_<d><ext>` is `int(d)` whenever `d` holds no '_', '.'
   * or '/': the name passes the filter and `d` is its ID text.
   */
  lemma DjiFileIdText(dir: string, d: string, ext: string)
    requires '_' !in d && '.' !in d && '/' !in d
    requires |ext| == 0 || ext[0] == '.'
    requires '/' !in ext
    requires 4 + |d| + |ext| >= MinNameLength
    ensures FileId(Join(dir, "DJI_" + d + ext)) == ParseInt(d)
  {
    var name := "DJI_" + d + ext;
    DjiName(d, ext);
    BasenameOfJoin(dir, name);
    FileIdOfName(Join(dir, name), name);
  }

  /**
   * A name whose ID text starts with something `int()` cannot start with (a
   * letter, as in `DJI_ABCD.JPG`) gets no ID, so the loop skips it.
   */
  lemma DjiNonNumeric(dir: string, d: string, ext: string)
    requires '_' !in d && '.' !in d && '/' !in d
    requires |d| > 0 && !IsDigit(d[0]) && !IsSpace(d[0]) && d[0] != '-' && d[0] != '+'
    requires |ext| == 0 || ext[0] == '.'
    requires '/' !in ext
    requires 4 + |d| + |ext| >= MinNameLength
    ensures FileId(Join(dir, "DJI_" + d + ext)) == None
  {
    DjiFileIdText(dir, d, ext);
    ParseIntOfNonNumeric(d);
  }

  /** `int()` raises on a text whose first character is no space, sign or digit. */
  lemma ParseIntOfNonNumeric(d: string)
    requires |d| > 0 && !IsDigit(d[0]) && !IsSpace(d[0]) && d[0] != '-' && d[0] != '+'
    ensures ParseInt(d) == None
  {
    assert TrimLeft(d) == d;
    TrimRightPrefix(d);
    var t := TrimRight(d);
    assert |t| > 0 ==> t[0] == d[0] && !StartsWith(t, "-") && !StartsWith(t, "+");
  }

  /** Decimal digits are none of the separators the name is cut at. */
  lemma DigitsHaveNoSeparator(d: string)
    requires AllDigits(d)
    ensures '_' !in d && '.' !in d && '/' !in d
  {
  }

  /** A `DJI_<d><ext>` name passes the filter, holds no '/' and carries `d` as its ID text. */
  lemma DjiName(d: string, ext: string)
    requires '_' !in d && '.' !in d && '/' !in d
    requires |ext| == 0 || ext[0] == '.'
    requires '/' !in ext
    requires 4 + |d| + |ext| >= MinNameLength
    ensures var name := "DJI_" + d + ext; Eligible(name) && IdText(name) == d && '/' !in name
  {
    var name := "DJI_" + d + ext;
    DjiNameHasNoSlash(d, ext);
    assert StartsWith(name, "DJI_") by { assert name[..4] == "DJI_"; }
    DjiIdText(d, ext);
  }

  /** The ID of a path is read off its basename alone. */
  lemma FileIdOfName(p: string, name: string)
    requires Basename(p) == name && Eligible(name)
    ensures FileId(p) == ParseInt(IdText(name))
  {
  }

  /** The camera's zero-padded name `DJI_0042.JPG`, in any directory, is indexed under 42. */
  lemma DjiZeroPadded(dir: string)
    ensures FileId(Join(dir, "DJI_0042.JPG")) == Some(42)
  {
    var d := "0042";
    assert AllDigits(d);
    assert DigitsValue(d) == 42 by {
      assert d[..3] == "004" && "004"[..2] == "00" && "00"[..1] == "0" && "0"[..0] == "";
    }
    assert "DJI_" + d + ".JPG" == "DJI_0042.JPG";
    DjiFileId(dir, d, ".JPG");
  }

  lemma DjiNameHasNoSlash(d: string, ext: string)
    requires '/' !in d && '/' !in ext
    ensures '/' !in "DJI_" + d + ext
  {
    var name := "DJI_" + d + ext;
    forall i | 0 <= i < |name| ensures name[i] != '/' {
      if i < 4 {
        assert name[i] == "DJI_"[i];
      } else if i < 4 + |d| {
        assert name[i] == d[i - 4];
      } else {
        assert name[i] == ext[i - 4 - |d|];
      }
    }
  }

  /** The ID text of `DJI_<d><ext>` is `d` when `d` holds no '_' or '.', whether `ext` starts with '.' or is empty. */
  lemma DjiIdText(d: string, ext: string)
    requires '_' !in d && '.' !in d
    requires |ext| == 0 || ext[0] == '.'
    ensures IdText("DJI_" + d + ext) == d
  {
    var name := "DJI_" + d + ext;
    assert name[4..] == d + ext;
    UpToFree(d, ext, '_');
    var u := UpTo(ext, '_');
    assert |u| == 0 || u[0] == '.';
    UpToFree(d, u, '.');
    assert UpTo(u, '.') == "";
    assert d + "" == d;
  }

  /** `UpTo` stops only at the separator, so it passes over any text that does not hold it. */
  lemma {:induction false} UpToFree(d: string, rest: string, c: char)
    requires c !in d
    ensures UpTo(d + rest, c) == d + UpTo(rest, c)
  {
    if |d| > 0 {
      assert (d + rest)[0] == d[0] && d[0] != c;
      assert (d + rest)[1..] == d[1..] + rest;
      assert c !in d[1..];
      UpToFree(d[1..], rest, c);
      assert [d[0]] + d[1..] == d;
    } else {
      assert d + rest == rest;
    }
  }
}

=== FILE: georeference.dfy ===
/**
 * The georeferencing step (`src/core/georeference_images.py`): for every
 * metadata row whose image exists, build the grid of per-pixel view angles,
 * project it onto the ground, record the four footprint corners, and hand four
 * ground control points to GDAL to write a GeoTIFF.
 *
 * The trigonometric functions are uninterpreted (`Trig`); GDAL, the file
 * system and the CSV files are passed in as values (`Disk`) or left out.
 * Arithmetic is exact on `real`: floating-point rounding is not modelled.
 */
module Georeference {
  import opened Wrappers
  import opened Seqs
  import opened PathText

  /** One degree of latitude, in metres. */
  const MetersPerDegree: real := 111132.0
  /** Bound of `np.clip` on the vertical ray angle, in radians. */
  const PitchLimit: real := 1.5
  /** `np.pi` written to sixteen significant digits. */
  const Pi: real := 3.141592653589793
  /** Appended to the image stem to name the output GeoTIFF. */
  const FinalSuffix: string := "_final.tif"

  /** numpy's `sin`, `cos` and `tan`, left uninterpreted. */
  datatype Trig = Trig(sin: real -> real, cos: real -> real, tan: real -> real)

  /** `np.radians`. */
  function Radians(deg: real): real {
    deg * Pi / 180.0
  }

  // ---------------------------------------------------------------------
  // Angle grid
  // ---------------------------------------------------------------------

  /** A 2-D array as a sequence of rows. */
  type Grid = seq<seq<real>>

  /** `g` has `rows` rows of `cols` entries each. */
  predicate IsGrid(g: Grid, rows: nat, cols: nat) {
    |g| == rows && forall i :: 0 <= i < rows ==> |g[i]| == cols
  }

  /**
   * `np.linspace(start, stop, n)`: `n` values `start + i * step` with
   * `step = (stop - start) / (n - 1)`; a single value is `start`.
   */
  function Linspace(start: real, stop: real, n: nat): (r: seq<real>)
    ensures |r| == n
  {
    if n == 1 then [start]
    else seq(n, i => start + (i as real) * Step(start, stop, n))
  }

  /** The spacing of `linspace`: `(stop - start) / (n - 1)`. */
  function Step(start: real, stop: real, n: nat): real
    requires n != 1
  {
    (stop - start) / ((n - 1) as real)
  }

  lemma LinspaceAt(start: real, stop: real, n: nat, i: nat)
    requires i < n
    ensures Linspace(start, stop, n)[i] == if n == 1 then start else start + (i as real) * Step(start, stop, n)
  {
  }

  /** `np.meshgrid(x, y)`: both results have `|y|` rows of `|x|` entries. */
  function Meshgrid(x: seq<real>, y: seq<real>): (r: (Grid, Grid))
    ensures IsGrid(r.0, |y|, |x|) && IsGrid(r.1, |y|, |x|)
  {
    (seq(|y|, i => x), seq(|y|, i requires 0 <= i < |y| => seq(|x|, j => y[i])))
  }

  /** `v_fov_deg = h_fov_deg / aspect` with `aspect = w / h`. */
  function VFov(w: nat, h: nat, hFov: real): real
    requires w > 0 && h > 0
  {
    hFov / ((w as real) / (h as real))
  }

  /** The horizontal angle of each column. */
  function XAngles(w: nat, hFov: real): seq<real> {
    Linspace(-hFov / 2.0, hFov / 2.0, w)
  }

  /** The vertical angle of each row, top row first. */
  function YAngles(w: nat, h: nat, hFov: real): seq<real>
    requires w > 0 && h > 0
  {
    Linspace(VFov(w, h, hFov) / 2.0, -VFov(w, h, hFov) / 2.0, h)
  }

  /**
   * `calculate_fov_angles`: the column-angle and row-angle grids.
   * A zero height or width raises `ZeroDivisionError`, modelled as `None`.
   */
  function CalculateFovAngles(w: nat, h: nat, hFov: real): (r: Option<(Grid, Grid)>)
    ensures r.None? <==> w == 0 || h == 0
    ensures r.Some? ==> IsGrid(r.value.0, h, w) && IsGrid(r.value.1, h, w)
  {
    if w == 0 || h == 0 then None
    else Some(Meshgrid(XAngles(w, hFov), YAngles(w, h, hFov)))
  }

  /** `linspace` puts `start` first and, with two or more values, `stop` last. */
  lemma LinspaceEnds(start: real, stop: real, n: nat)
    requires n >= 1
    ensures Linspace(start, stop, n)[0] == start
    ensures n >= 2 ==> Linspace(start, stop, n)[n - 1] == stop
  {
    LinspaceAt(start, stop, n, 0);
    if n >= 2 {
      LinspaceAt(start, stop, n, n - 1);
      var d := (n - 1) as real;
      assert d * Step(start, stop, n) == stop - start;
    }
  }

  /** `linspace` values are evenly spaced, one `step` apart. */
  lemma LinspaceEven(start: real, stop: real, n: nat, i: nat)
    requires i + 1 < n
    ensures Linspace(start, stop, n)[i + 1] - Linspace(start, stop, n)[i] == (stop - start) / ((n - 1) as real)
  {
    LinspaceAt(start, stop, n, i);
    LinspaceAt(start, stop, n, i + 1);
    var step := Step(start, stop, n);
    assert ((i + 1) as real) * step == (i as real) * step + step;
  }

  /**
   * A range symmetric about zero gives values symmetric about zero, except for
   * a single value, which is the start of the range.
   */
  lemma LinspaceSymmetric(a: real, n: nat, i: nat)
    requires i < n && n != 1
    ensures Linspace(-a, a, n)[n - 1 - i] == -Linspace(-a, a, n)[i]
  {
    LinspaceAt(-a, a, n, i);
    LinspaceAt(-a, a, n, n - 1 - i);
    if n >= 2 {
      var d := (n - 1) as real;
      var step := Step(-a, a, n);
      assert d * step == 2.0 * a;
      assert ((n - 1 - i) as real) * step == d * step - (i as real) * step;
    }
  }

  /** The vertical field of view is `h_fov * h / w`. */
  lemma VFovRatio(w: nat, h: nat, hFov: real)
    requires w > 0 && h > 0
    ensures VFov(w, h, hFov) == hFov * (h as real) / (w as real)
    ensures VFov(w, h, hFov) * (w as real) == hFov * (h as real)
  {
    var aspect := (w as real) / (h as real);
    assert aspect * (h as real) == w as real;
    assert VFov(w, h, hFov) * aspect == hFov;
  }

  /**
   * The angle grids: every row of the first runs evenly from `-h_fov/2` at
   * column 0 to `+h_fov/2` at the last column, every column of the second
   * from `+v_fov/2` at row 0 to `-v_fov/2` at the last row.
   */
  lemma {:induction false} FovGrid(w: nat, h: nat, hFov: real, i: nat, j: nat)
    requires i < h && j < w
    ensures CalculateFovAngles(w, h, hFov).Some?
    ensures CalculateFovAngles(w, h, hFov).value.0[i][j] == XAngles(w, hFov)[j]
    ensures CalculateFovAngles(w, h, hFov).value.1[i][j] == YAngles(w, h, hFov)[i]
    ensures XAngles(w, hFov)[0] == -hFov / 2.0 && YAngles(w, h, hFov)[0] == VFov(w, h, hFov) / 2.0
    ensures w >= 2 ==> XAngles(w, hFov)[w - 1] == hFov / 2.0
    ensures h >= 2 ==> YAngles(w, h, hFov)[h - 1] == -VFov(w, h, hFov) / 2.0
  {
    AngleEnds(w, h, hFov);
  }

  /** The first and last column and row angles. */
  lemma AngleEnds(w: nat, h: nat, hFov: real)
    requires w > 0 && h > 0
    ensures XAngles(w, hFov)[0] == -hFov / 2.0 && YAngles(w, h, hFov)[0] == VFov(w, h, hFov) / 2.0
    ensures w >= 2 ==> XAngles(w, hFov)[w - 1] == hFov / 2.0
    ensures h >= 2 ==> YAngles(w, h, hFov)[h - 1] == -VFov(w, h, hFov) / 2.0
  {
    LinspaceEnds(-hFov / 2.0, hFov / 2.0, w);
    LinspaceEnds(VFov(w, h, hFov) / 2.0, -VFov(w, h, hFov) / 2.0, h);
  }

  // ---------------------------------------------------------------------
  // Ray projection
  // ---------------------------------------------------------------------

  /** `np.clip(a, -1.5, 1.5)`. */
  function ClipPitch(a: real): (r: real)
    ensures -PitchLimit <= r <= PitchLimit
    ensures -PitchLimit <= a <= PitchLimit ==> r == a
  {
    if a < -PitchLimit then -PitchLimit
    else if a > PitchLimit then PitchLimit
    else a
  }

  function Dist(x: real, y: real): real {
    if x < y then y - x else x - y
  }

  /** The clipped angle is the point of `[-1.5, 1.5]` nearest to the unclipped one. */
  lemma ClipNearest(a: real, b: real)
    requires -PitchLimit <= b <= PitchLimit
    ensures Dist(ClipPitch(a), a) <= Dist(b, a)
  {
  }

  /** The core of `rotate_coords`, for a given cosine `c` and sine `s`. */
  function Rotate(x: real, y: real, c: real, s: real): (real, real) {
    (x * c - y * s, x * s + y * c)
  }

  /** `rotate_coords(x, y, yaw_deg)`. */
  function RotateCoords(trig: Trig, x: real, y: real, yawDeg: real): (real, real) {
    var rad := Radians(yawDeg);
    Rotate(x, y, trig.cos(rad), trig.sin(rad))
  }

  /** Rotating by yaw 0 (`c = 1`, `s = 0`) changes nothing. */
  lemma RotateIdentity(x: real, y: real)
    ensures Rotate(x, y, 1.0, 0.0) == (x, y)
  {
  }

  /** A rotation keeps `x² + y²` when `c² + s² = 1`. */
  lemma RotatePreservesNorm(x: real, y: real, c: real, s: real)
    requires c * c + s * s == 1.0
    ensures var (u, v) := Rotate(x, y, c, s); u * u + v * v == x * x + y * y
  {
    var (u, v) := Rotate(x, y, c, s);
    assert u * u == x * x * (c * c) - 2.0 * x * y * c * s + y * y * (s * s);
    assert v * v == x * x * (s * s) + 2.0 * x * y * c * s + y * y * (c * c);
    assert u * u + v * v == x * x * (c * c + s * s) + y * y * (c * c + s * s);
  }

  /** Rotating back by the opposite angle (`c`, `-s`) undoes a rotation. */
  lemma RotateInverse(x: real, y: real, c: real, s: real)
    requires c * c + s * s == 1.0
    ensures var (u, v) := Rotate(x, y, c, s); Rotate(u, v, c, -s) == (x, y)
  {
    var (u, v) := Rotate(x, y, c, s);
    assert u * c + v * s == x * (c * c + s * s);
    assert u * -s + v * c == y * (c * c + s * s);
    assert u * c - v * -s == x;
    assert u * -s + v * c == y;
  }

  /** Position and attitude of one shot: `lat_origin`, `lon_origin`, `alt`, `total_r`, `total_p`, `total_y`. */
  datatype Pose = Pose(lat: real, lon: real, alt: real, roll: real, pitch: real, yaw: real)

  datatype LonLat = LonLat(lon: real, lat: real)

  /**
   * The ground point `project_ray` computes for one pixel whose view angles
   * are `ax` (horizontal) and `ay` (vertical), in degrees.
   */
  function Ground(trig: Trig, pose: Pose, ax: real, ay: real): LonLat
    requires trig.cos(Radians(pose.lat)) != 0.0
  {
    var angX := Radians(ax + pose.roll);
    var angY := ClipPitch(Radians(ay + pose.pitch));
    var distX := pose.alt * trig.tan(angX);
    var distY := pose.alt * trig.tan(angY);
    var d := RotateCoords(trig, distX, distY, pose.yaw);
    LonLat(pose.lon + d.0 / (MetersPerDegree * trig.cos(Radians(pose.lat))), pose.lat + d.1 / MetersPerDegree)
  }

  /** `project_ray`: the longitude and latitude grids of a `w` × `h` image. */
  function ProjectRay(trig: Trig, pose: Pose, w: nat, h: nat, hFov: real): (r: Option<(Grid, Grid)>)
    requires trig.cos(Radians(pose.lat)) != 0.0
    ensures r.None? <==> w == 0 || h == 0
    ensures r.Some? ==> IsGrid(r.value.0, h, w) && IsGrid(r.value.1, h, w)
  {
    match CalculateFovAngles(w, h, hFov)
    case None => None
    case Some(g) =>
      var (xv, yv) := g;
      Some((seq(h, i requires 0 <= i < h => seq(w, j requires 0 <= j < w => Ground(trig, pose, xv[i][j], yv[i][j]).lon)),
            seq(h, i requires 0 <= i < h => seq(w, j requires 0 <= j < w => Ground(trig, pose, xv[i][j], yv[i][j]).lat))))
  }

  /**
   * The projected grids have the image's shape, and the entry in row `i`,
   * column `j` is the ground point of that pixel's view angles.
   */
  lemma ProjectRayPixel(trig: Trig, pose: Pose, w: nat, h: nat, hFov: real, lons: Grid, lats: Grid, i: nat, j: nat)
    requires trig.cos(Radians(pose.lat)) != 0.0
    requires ProjectRay(trig, pose, w, h, hFov) == Some((lons, lats))
    requires i < h && j < w
    ensures IsGrid(lons, h, w) && IsGrid(lats, h, w)
    ensures lons[i][j] == Ground(trig, pose, XAngles(w, hFov)[j], YAngles(w, h, hFov)[i]).lon
    ensures lats[i][j] == Ground(trig, pose, XAngles(w, hFov)[j], YAngles(w, h, hFov)[i]).lat
  {
    FovGrid(w, h, hFov, i, j);
    var (xv, yv) := CalculateFovAngles(w, h, hFov).value;
    assert lons[i] == seq(w, j requires 0 <= j < w => Ground(trig, pose, xv[i][j], yv[i][j]).lon);
    assert lats[i] == seq(w, j requires 0 <= j < w => Ground(trig, pose, xv[i][j], yv[i][j]).lat);
  }

  /** From zero altitude every pixel lands on the GPS position. */
  lemma GroundAtZeroAltitude(trig: Trig, pose: Pose, ax: real, ay: real)
    requires trig.cos(Radians(pose.lat)) != 0.0 && pose.alt == 0.0
    ensures Ground(trig, pose, ax, ay) == LonLat(pose.lon, pose.lat)
  {
  }

  // ---------------------------------------------------------------------
  // Yaw
  // ---------------------------------------------------------------------

  /** Python's `x % m` on floats for `m > 0`: the remainder after floor division. */
  function FloorMod(x: real, m: real): real
    requires m > 0.0
  {
    x - m * ((x / m).Floor as real)
  }

  /** `t_yaw = (ATT_Yaw + cam_yaw) % 360`. */
  function EffectiveYaw(attYaw: real, camYaw: real): real {
    FloorMod(attYaw + camYaw, 360.0)
  }

  /** The effective yaw lies in `[0, 360)` and differs from the raw sum by whole turns. */
  lemma EffectiveYawRange(attYaw: real, camYaw: real)
    ensures 0.0 <= EffectiveYaw(attYaw, camYaw) < 360.0
    ensures var turns := (attYaw + camYaw - EffectiveYaw(attYaw, camYaw)) / 360.0; turns == turns.Floor as real
  {
    var x := attYaw + camYaw;
    var q := (x / 360.0).Floor;
    assert (q as real) <= x / 360.0 < (q as real) + 1.0;
    assert 360.0 * (q as real) <= x < 360.0 * (q as real) + 360.0;
    assert x - EffectiveYaw(attYaw, camYaw) == 360.0 * (q as real);
    assert (x - EffectiveYaw(attYaw, camYaw)) / 360.0 == q as real;
  }

  /** A yaw already in `[0, 360)` is kept as it is. */
  lemma EffectiveYawKeepsTurn(attYaw: real, camYaw: real)
    requires 0.0 <= attYaw + camYaw < 360.0
    ensures EffectiveYaw(attYaw, camYaw) == attYaw + camYaw
  {
    var x := attYaw + camYaw;
    assert 0.0 <= x / 360.0 < 1.0;
    assert (x / 360.0).Floor == 0;
  }

  /** Whole turns added to the yaw do not change the effective yaw. */
  lemma EffectiveYawPeriodic(attYaw: real, camYaw: real, n: int)
    ensures EffectiveYaw(attYaw + 360.0 * (n as real), camYaw) == EffectiveYaw(attYaw, camYaw)
  {
    var x := attYaw + camYaw;
    var y := x + 360.0 * (n as real);
    assert y / 360.0 == x / 360.0 + (n as real);
    assert (y / 360.0).Floor == (x / 360.0).Floor + n;
  }

  // ---------------------------------------------------------------------
  // Corners and control points
  // ---------------------------------------------------------------------

  /** One row of the metadata table: `filename`, the GPS position and the platform attitude. */
  datatype MetaRow = MetaRow(filename: string, lat: real, lon: real, alt: real,
                             attRoll: real, attPitch: real, attYaw: real)

  /** The `img_corners` record, in its column order. */
  datatype CornerRow = CornerRow(
    filename: string, centerLon: real, centerLat: real,
    tlLon: real, tlLat: real, trLon: real, trLat: real,
    blLon: real, blLat: real, brLon: real, brLat: real)

  /** Both grids are `h` × `w` with `w` and `h` positive, so the four corners exist. */
  predicate Footprint(lons: Grid, lats: Grid, w: nat, h: nat) {
    w > 0 && h > 0 && IsGrid(lons, h, w) && IsGrid(lats, h, w)
  }

  /** `img_corners`: the centre is the GPS position; the corners are `[0,0]`, `[0,-1]`, `[-1,0]`, `[-1,-1]`. */
  function BuildCorners(row: MetaRow, lons: Grid, lats: Grid, w: nat, h: nat): CornerRow
    requires Footprint(lons, lats, w, h)
  {
    CornerRow(row.filename, row.lon, row.lat,
      lons[0][0], lats[0][0], lons[0][w - 1], lats[0][w - 1],
      lons[h - 1][0], lats[h - 1][0], lons[h - 1][w - 1], lats[h - 1][w - 1])
  }

  /** `gdal.GCP(x, y, z, pixel, line)`: ground `x`/`y`/`z` tied to an image position. */
  datatype Gcp = Gcp(x: real, y: real, z: real, pixel: real, line: real)

  /** The four control points, at the centres of the four corner pixels. */
  function BuildGcps(lons: Grid, lats: Grid, w: nat, h: nat): seq<Gcp>
    requires Footprint(lons, lats, w, h)
  {
    [ Gcp(lons[0][0], lats[0][0], 0.0, 0.5, 0.5),
      Gcp(lons[0][w - 1], lats[0][w - 1], 0.0, (w as real) - 0.5, 0.5),
      Gcp(lons[h - 1][0], lats[h - 1][0], 0.0, 0.5, (h as real) - 0.5),
      Gcp(lons[h - 1][w - 1], lats[h - 1][w - 1], 0.0, (w as real) - 0.5, (h as real) - 0.5) ]
  }

  /**
   * Exactly four control points; each lies at elevation 0, is anchored at the
   * centre of a corner pixel, carries that pixel's ground position, and agrees
   * with the TL, TR, BL and BR entries of the corner record in turn.
   */
  lemma GcpsMatchCorners(row: MetaRow, lons: Grid, lats: Grid, w: nat, h: nat)
    requires Footprint(lons, lats, w, h)
    ensures var g := BuildGcps(lons, lats, w, h);
      var c := BuildCorners(row, lons, lats, w, h);
      && |g| == 4
      && (forall k :: 0 <= k < 4 ==> g[k].z == 0.0)
      && (forall k :: 0 <= k < 4 ==>
            var col := (g[k].pixel - 0.5).Floor;
            var line := (g[k].line - 0.5).Floor;
            && 0 <= col < w && 0 <= line < h
            && g[k].pixel == col as real + 0.5 && g[k].line == line as real + 0.5
            && g[k].x == lons[line][col] && g[k].y == lats[line][col])
      && g[0].pixel == 0.5 && g[0].line == 0.5
      && g[1].pixel == (w as real) - 0.5 && g[1].line == 0.5
      && g[2].pixel == 0.5 && g[2].line == (h as real) - 0.5
      && g[3].pixel == (w as real) - 0.5 && g[3].line == (h as real) - 0.5
      && g[0].x == c.tlLon && g[0].y == c.tlLat
      && g[1].x == c.trLon && g[1].y == c.trLat
      && g[2].x == c.blLon && g[2].y == c.blLat
      && g[3].x == c.brLon && g[3].y == c.brLat
  {
    var g := BuildGcps(lons, lats, w, h);
    assert (g[1].pixel - 0.5).Floor == w - 1;
    assert (g[2].line - 0.5).Floor == h - 1;
    assert (g[3].pixel - 0.5).Floor == w - 1 && (g[3].line - 0.5).Floor == h - 1;
  }

  /**
   * The corners of a projected image are the ground points of the extreme view
   * angles: top-left looks at `(-h_fov/2, +v_fov/2)`, top-right at
   * `(+h_fov/2, +v_fov/2)`, bottom-left at `(-h_fov/2, -v_fov/2)` and
   * bottom-right at `(+h_fov/2, -v_fov/2)`.
   */
  lemma CornersAtFovExtremes(trig: Trig, row: MetaRow, pose: Pose, w: nat, h: nat, hFov: real, lons: Grid, lats: Grid)
    requires trig.cos(Radians(pose.lat)) != 0.0
    requires ProjectRay(trig, pose, w, h, hFov) == Some((lons, lats))
    requires w >= 2 && h >= 2
    ensures Footprint(lons, lats, w, h)
    ensures var v := VFov(w, h, hFov);
      var c := BuildCorners(row, lons, lats, w, h);
      && LonLat(c.tlLon, c.tlLat) == Ground(trig, pose, -hFov / 2.0, v / 2.0)
      && LonLat(c.trLon, c.trLat) == Ground(trig, pose, hFov / 2.0, v / 2.0)
      && LonLat(c.blLon, c.blLat) == Ground(trig, pose, -hFov / 2.0, -v / 2.0)
      && LonLat(c.brLon, c.brLat) == Ground(trig, pose, hFov / 2.0, -v / 2.0)
  {
    AngleEnds(w, h, hFov);
    var v := VFov(w, h, hFov);
    CornerGround(trig, pose, w, h, hFov, lons, lats, 0, 0, -hFov / 2.0, v / 2.0);
    CornerGround(trig, pose, w, h, hFov, lons, lats, 0, w - 1, hFov / 2.0, v / 2.0);
    CornerGround(trig, pose, w, h, hFov, lons, lats, h - 1, 0, -hFov / 2.0, -v / 2.0);
    CornerGround(trig, pose, w, h, hFov, lons, lats, h - 1, w - 1, hFov / 2.0, -v / 2.0);
  }

  lemma CornerGround(trig: Trig, pose: Pose, w: nat, h: nat, hFov: real, lons: Grid, lats: Grid, i: nat, j: nat, ax: real, ay: real)
    requires trig.cos(Radians(pose.lat)) != 0.0
    requires ProjectRay(trig, pose, w, h, hFov) == Some((lons, lats))
    requires i < h && j < w
    requires XAngles(w, hFov)[j] == ax && YAngles(w, h, hFov)[i] == ay
    ensures IsGrid(lons, h, w) && IsGrid(lats, h, w)
    ensures LonLat(lons[i][j], lats[i][j]) == Ground(trig, pose, ax, ay)
  {
    ProjectRayPixel(trig, pose, w, h, hFov, lons, lats, i, j);
  }

  // ---------------------------------------------------------------------
  // Output names
  // ---------------------------------------------------------------------

  /** `os.path.splitext(fname)[0] + "_final.tif"`. */
  function OutName(fname: string): string {
    Stem(fname) + FinalSuffix
  }

  /** `os.path.join(output_dir, out_name)`. */
  function OutPath(outputDir: string, fname: string): string {
    Join(outputDir, OutName(fname))
  }

  /** `out_path.replace(".tif", ".vrt")`. */
  function VrtPath(outPath: string): string {
    ReplaceTif(outPath)
  }

  /**
   * The output path ends in `_final.tif`; the intermediate VRT path has the
   * same length, ends in `.vrt` and so never collides with the output.
   */
  lemma OutputNames(outputDir: string, fname: string)
    ensures EndsWith(OutPath(outputDir, fname), FinalSuffix)
    ensures var vrt := VrtPath(OutPath(outputDir, fname));
      |vrt| == |OutPath(outputDir, fname)| && EndsWith(vrt, ".vrt") && vrt != OutPath(outputDir, fname)
  {
    var name := OutName(fname);
    assert EndsWith(name, FinalSuffix) by {
      assert name[|name| - |FinalSuffix|..] == FinalSuffix;
    }
    EndsWithTrans(OutPath(outputDir, fname), name, FinalSuffix);
    FinalPathNames(OutPath(outputDir, fname));
  }

  lemma EndsWithTrans(a: string, b: string, c: string)
    requires EndsWith(a, b) && EndsWith(b, c)
    ensures EndsWith(a, c)
  {
    assert a[|a| - |c|..] == a[|a| - |b|..][|b| - |c|..];
  }

  /** Rewriting a path that ends in `_final.tif` keeps its length and gives one that ends in `.vrt`. */
  lemma FinalPathNames(out: string)
    requires EndsWith(out, FinalSuffix)
    ensures |ReplaceTif(out)| == |out| && EndsWith(ReplaceTif(out), ".vrt") && ReplaceTif(out) != out
  {
    EndsWithTrans(out, FinalSuffix, ".tif");
    ReplaceTifSuffix(out);
    var vrt := ReplaceTif(out);
    assert vrt[|vrt| - 1] == 't' && out[|out| - 1] == 'f';
  }

  /**
   * The replacement covers the whole path: a `.tif` inside the output directory
   * is rewritten too, separately from the file name.
   */
  lemma VrtRewritesDirectory(outputDir: string, fname: string)
    requires outputDir != "" && !EndsWith(outputDir, "/")
    requires !StartsWith(OutName(fname), "/")
    ensures VrtPath(OutPath(outputDir, fname)) == ReplaceTif(outputDir) + "/" + ReplaceTif(OutName(fname))
  {
    ReplaceTifSplits(outputDir, OutName(fname));
  }

  // ---------------------------------------------------------------------
  // The per-image loop
  // ---------------------------------------------------------------------

  /** A raster as `gdal.Open` reports it. */
  datatype Raster = Raster(width: nat, height: nat)

  /**
   * The file system and GDAL as the loop sees them: the paths that exist, and
   * for each the raster GDAL opens (`None` when it cannot); and the source
   * images for which `gdal.Translate` or `gdal.Warp` raises.
   */
  datatype Disk = Disk(files: map<string, Option<Raster>>, gdalFails: set<string>)

  /** The arguments of `run` that stay fixed across rows. */
  datatype Settings = Settings(imageDir: string, outputDir: string, camPitch: real, camYaw: real, hFov: real)

  /** What one metadata row produces. */
  datatype RowOutcome =
    | Missing                   // the image does not exist: `continue`
    | Failed                    // an exception before the corner record is appended
    | Projected(corners: CornerRow, gcps: seq<Gcp>, vrtPath: string, outPath: string, written: bool)

  /** `t_pitch`, `t_roll` and `t_yaw` together with the row's GPS position. */
  function RowPose(row: MetaRow, cfg: Settings): Pose {
    Pose(row.lat, row.lon, row.alt, row.attRoll, cfg.camPitch + row.attPitch, EffectiveYaw(row.attYaw, cfg.camYaw))
  }

  /**
   * The body of the loop of `run` for one row. A zero `cos(lat)` (which numpy
   * never returns for a double argument) is treated as a failed row.
   */
  function ProcessRow(row: MetaRow, cfg: Settings, disk: Disk, trig: Trig): RowOutcome
  {
    var src := Join(cfg.imageDir, row.filename);
    if src !in disk.files then Missing
    else
      match disk.files[src]
      case None => Failed  // `ds` is None: reading its size raises
      case Some(raster) =>
        var w := raster.width;
        var h := raster.height;
        var pose := RowPose(row, cfg);
        if trig.cos(Radians(pose.lat)) == 0.0 then Failed
        else
          match ProjectRay(trig, pose, w, h, cfg.hFov)
          case None => Failed  // division by a zero size
          case Some(g) =>
            var (lons, lats) := g;
            var out := OutPath(cfg.outputDir, row.filename);
            Projected(BuildCorners(row, lons, lats, w, h), BuildGcps(lons, lats, w, h),
                      VrtPath(out), out, src !in disk.gdalFails)
  }

  /** `ProcessRow` with the fixed arguments of one call of `run`. */
  function Process(cfg: Settings, disk: Disk, trig: Trig): MetaRow -> RowOutcome {
    row => ProcessRow(row, cfg, disk, trig)
  }

  /** The corner record a row contributes, if any. */
  function RowCorners(o: RowOutcome): seq<CornerRow> {
    if o.Projected? then [o.corners] else []
  }

  /** The GeoTIFF a row writes, if any. */
  function RowOutput(o: RowOutcome): seq<string> {
    if o.Projected? && o.written then [o.outPath] else []
  }

  /** `corner_data` after the loop has visited every row of `rows`. */
  function CornerTable(rows: seq<MetaRow>, process: MetaRow -> RowOutcome): seq<CornerRow> {
    if rows == [] then []
    else CornerTable(rows[..|rows| - 1], process) + RowCorners(process(rows[|rows| - 1]))
  }

  /** The GeoTIFFs written after the loop has visited every row of `rows`, in order. */
  function Written(rows: seq<MetaRow>, process: MetaRow -> RowOutcome): seq<string> {
    if rows == [] then []
    else Written(rows[..|rows| - 1], process) + RowOutput(process(rows[|rows| - 1]))
  }

  /** Visiting one more row adds what that row contributes. */
  lemma TablesSnoc(rows: seq<MetaRow>, row: MetaRow, process: MetaRow -> RowOutcome)
    ensures CornerTable(rows + [row], process) == CornerTable(rows, process) + RowCorners(process(row))
    ensures Written(rows + [row], process) == Written(rows, process) + RowOutput(process(row))
  {
    assert (rows + [row])[..|rows|] == rows;
  }

  /**
   * `run`: visit the rows in order, skip missing images, catch each row's
   * failure, and write the verification table only when it has rows.
   */
  method Run(rows: seq<MetaRow>, cfg: Settings, disk: Disk, trig: Trig)
    returns (cornerData: seq<CornerRow>, geotiffs: seq<string>, tableWritten: bool)
    ensures cornerData == CornerTable(rows, Process(cfg, disk, trig))
    ensures geotiffs == Written(rows, Process(cfg, disk, trig))
    ensures tableWritten <==> |cornerData| > 0
  {
    ghost var process := Process(cfg, disk, trig);
    cornerData := [];
    geotiffs := [];
    var i := 0;
    while i < |rows|
      invariant 0 <= i <= |rows|
      invariant cornerData == CornerTable(rows[..i], process)
      invariant geotiffs == Written(rows[..i], process)
    {
      var row := rows[i];
      ghost var before := rows[..i];
      assert rows[..i + 1] == before + [row];
      TablesSnoc(before, row, process);
      var outcome := ProcessRow(row, cfg, disk, trig);
      assert outcome == process(row);
      if outcome.Projected? {
        // the corner record is appended before GDAL runs
        cornerData := cornerData + [outcome.corners];
        if outcome.written {
          geotiffs := geotiffs + [outcome.outPath];
        }
      }
      i := i + 1;
    }
    assert rows[..i] == rows;
    tableWritten := |cornerData| > 0;
  }

  /**
   * Rows are processed independently: what a list of rows records is what its
   * first part records followed by what the rest records, so a failing row
   * never affects the rows after it.
   */
  lemma {:induction false} TablesAppend(a: seq<MetaRow>, b: seq<MetaRow>, process: MetaRow -> RowOutcome)
    ensures CornerTable(a + b, process) == CornerTable(a, process) + CornerTable(b, process)
    ensures Written(a + b, process) == Written(a, process) + Written(b, process)
  {
    if b == [] {
      assert a + b == a;
    } else {
      var init, last := b[..|b| - 1], b[|b| - 1];
      assert b == init + [last];
      TablesAppend(a, init, process);
      AppendAssoc(a, init, [last]);
      TablesSnoc(a + init, last, process);
      TablesSnoc(init, last, process);
      AppendAssoc(CornerTable(a, process), CornerTable(init, process), RowCorners(process(last)));
      AppendAssoc(Written(a, process), Written(init, process), RowOutput(process(last)));
    }
  }

  /**
   * A row records a corner entry exactly when its image exists, GDAL opens it
   * and it has a non-zero width and height; a missing image records nothing.
   */
  lemma RowRecorded(row: MetaRow, cfg: Settings, disk: Disk, trig: Trig)
    requires trig.cos(Radians(row.lat)) != 0.0
    ensures var src := Join(cfg.imageDir, row.filename);
      && (src !in disk.files ==> ProcessRow(row, cfg, disk, trig) == Missing)
      && (ProcessRow(row, cfg, disk, trig).Projected? <==>
            src in disk.files && disk.files[src].Some?
            && disk.files[src].value.width > 0 && disk.files[src].value.height > 0)
  {
  }

  /**
   * A GDAL failure costs the row its GeoTIFF but not its corner record: the
   * corner table is the same whichever images GDAL fails on.
   */
  lemma {:induction false} CornersIgnoreGdal(rows: seq<MetaRow>, cfg: Settings, disk: Disk, fails: set<string>, trig: Trig)
    ensures CornerTable(rows, Process(cfg, disk, trig)) == CornerTable(rows, Process(cfg, disk.(gdalFails := fails), trig))
  {
    if rows != [] {
      var row := rows[|rows| - 1];
      CornersIgnoreGdal(rows[..|rows| - 1], cfg, disk, fails, trig);
      assert RowCorners(ProcessRow(row, cfg, disk, trig)) == RowCorners(ProcessRow(row, cfg, disk.(gdalFails := fails), trig));
    }
  }

  /**
   * A projected row writes its GeoTIFF exactly when GDAL succeeds on its
   * image; its corner record carries the file name and the GPS position as
   * centre, and four control points go with it.
   */
  lemma ProjectedRow(row: MetaRow, cfg: Settings, disk: Disk, trig: Trig)
    requires ProcessRow(row, cfg, disk, trig).Projected?
    ensures var o := ProcessRow(row, cfg, disk, trig);
      && o.written == (Join(cfg.imageDir, row.filename) !in disk.gdalFails)
      && o.outPath == OutPath(cfg.outputDir, row.filename)
      && o.vrtPath == VrtPath(o.outPath)
      && o.corners.filename == row.filename
      && o.corners.centerLon == row.lon && o.corners.centerLat == row.lat
      && |o.gcps| == 4
    ensures var src := Join(cfg.imageDir, row.filename);
      && src in disk.files && disk.files[src].Some?
      && var raster := disk.files[src].value;
         var pose := RowPose(row, cfg);
         && trig.cos(Radians(pose.lat)) != 0.0
         && ProjectRay(trig, pose, raster.width, raster.height, cfg.hFov).Some?
         && var (lons, lats) := ProjectRay(trig, pose, raster.width, raster.height, cfg.hFov).value;
            var o := ProcessRow(row, cfg, disk, trig);
            && Footprint(lons, lats, raster.width, raster.height)
            && o.corners == BuildCorners(row, lons, lats, raster.width, raster.height)
            && o.gcps == BuildGcps(lons, lats, raster.width, raster.height)
  {
  }

  /** Every GeoTIFF written belongs to a row whose corner record was kept. */
  lemma {:induction false} WrittenHaveCorners(rows: seq<MetaRow>, process: MetaRow -> RowOutcome)
    ensures |Written(rows, process)| <= |CornerTable(rows, process)| <= |rows|
  {
    if rows != [] {
      WrittenHaveCorners(rows[..|rows| - 1], process);
    }
  }
}

=== FILE: path_text.dfy ===
/**
 * The slice of Python's string and `os.path` behaviour (posix flavour) that the
 * metadata fusion and the georeferencing steps rely on: basename, splitext,
 * join, case-insensitive suffix tests and `str.replace(".tif", ".vrt")`.
 */
module PathText {
  import opened Seqs

  predicate StartsWith(s: string, prefix: string) {
    |prefix| <= |s| && s[..|prefix|] == prefix
  }

  predicate EndsWith(s: string, suffix: string) {
    |suffix| <= |s| && s[|s| - |suffix|..] == suffix
  }

  /** Index of the last `c` in `s`, or -1 (`str.rfind`). */
  function LastIndexOf(s: string, c: char): (r: int)
    ensures -1 <= r < |s|
    ensures r >= 0 ==> s[r] == c
    ensures forall k :: r < k < |s| ==> s[k] != c
  {
    if |s| == 0 then -1
    else if s[|s| - 1] == c then |s| - 1
    else LastIndexOf(s[..|s| - 1], c)
  }

  /** `os.path.basename`: the characters after the last '/', collected from the end. */
  function Basename(p: string): string
  {
    if |p| == 0 || p[|p| - 1] == '/' then ""
    else Basename(p[..|p| - 1]) + [p[|p| - 1]]
  }

  /** The basename is the text after the last '/' (`p[p.rfind('/') + 1:]`). */
  lemma {:induction false} BasenameAfterLastSlash(p: string)
    ensures Basename(p) == p[LastIndexOf(p, '/') + 1..]
  {
    if |p| > 0 && p[|p| - 1] != '/' {
      var init := p[..|p| - 1];
      BasenameAfterLastSlash(init);
      var k := LastIndexOf(init, '/') + 1;
      assert LastIndexOf(p, '/') + 1 == k;
      assert p[k..] == init[k..] + [p[|p| - 1]];
    }
  }

  /** The basename is the longest suffix that holds no '/'. */
  lemma BasenameIsLastComponent(p: string)
    ensures EndsWith(p, Basename(p))
    ensures '/' !in Basename(p)
    ensures |Basename(p)| < |p| ==> p[|p| - |Basename(p)| - 1] == '/'
  {
    BasenameAfterLastSlash(p);
    var k := LastIndexOf(p, '/') + 1;
    forall i | 0 <= i < |p| - k ensures p[k..][i] != '/' {
      assert p[k..][i] == p[k + i];
    }
  }

  /** The part of `s` before the first `c`: `s.split(c)[0]`. */
  function UpTo(s: string, c: char): (r: string)
    ensures c !in r
    ensures StartsWith(s, r)
    ensures |r| < |s| ==> s[|r|] == c
  {
    if |s| == 0 || s[0] == c then ""
    else [s[0]] + UpTo(s[1..], c)
  }

  /** ASCII case folding of one character. */
  function LowerChar(c: char): char {
    if 'A' <= c <= 'Z' then (c as int + 32) as char else c
  }

  /** `str.lower()` restricted to ASCII letters. */
  function Lower(s: string): (r: string)
    ensures |r| == |s|
    ensures forall i :: 0 <= i < |s| ==> r[i] == LowerChar(s[i])
  {
    if |s| == 0 then "" else [LowerChar(s[0])] + Lower(s[1..])
  }

  /** `name.lower().endswith(('.jpg', '.jpeg'))`. */
  predicate IsJpegName(name: string) {
    EndsWith(Lower(name), ".jpg") || EndsWith(Lower(name), ".jpeg")
  }

  /** True when some character of `p[from..to]` is not a dot. */
  predicate HasNonDot(p: string, from: int, to: int)
    requires 0 <= from <= to <= |p|
  {
    exists k :: from <= k < to && p[k] != '.'
  }

  /**
   * `os.path.splitext(p)[0]`: the extension is the text from the last dot on,
   * provided that dot lies in the last path component and is not one of the
   * component's leading dots.
   */
  function Stem(p: string): (r: string)
    ensures StartsWith(p, r)
    ensures r != p ==> p[|r|] == '.' && '/' !in p[|r|..] && '.' !in p[|r| + 1..]
    ensures r != p ==> LastIndexOf(p, '/') < |r| && HasNonDot(p, LastIndexOf(p, '/') + 1, |r|)
    ensures r == p ==> forall i, k :: LastIndexOf(p, '/') < i < k < |p| && p[k] == '.' ==> p[i] == '.'
  {
    var sep := LastIndexOf(p, '/');
    var dot := LastIndexOf(p, '.');
    if dot > sep && HasNonDot(p, sep + 1, dot) then p[..dot] else p
  }

  /** A '/'-free suffix that is preceded by '/' (or is everything) is the basename. */
  lemma BasenameOfSuffix(p: string, b: string)
    requires EndsWith(p, b) && '/' !in b
    requires |p| == |b| || p[|p| - |b| - 1] == '/'
    ensures Basename(p) == b
  {
    // the last '/' of `p` is the one just before `b`, or there is none
    forall k | |p| - |b| <= k < |p| ensures p[k] != '/' {
      assert p[k] == p[|p| - |b|..][k - (|p| - |b|)];
    }
    assert LastIndexOf(p, '/') == |p| - |b| - 1;
    BasenameAfterLastSlash(p);
  }

  /** `os.path.join(a, b)` for two components. */
  function Join(a: string, b: string): (r: string)
    ensures EndsWith(r, b)
    ensures StartsWith(b, "/") ==> r == b
    ensures !StartsWith(b, "/") && (a == "" || EndsWith(a, "/")) ==> r == a + b
    ensures !StartsWith(b, "/") && a != "" && !EndsWith(a, "/") ==> r == a + "/" + b
  {
    if StartsWith(b, "/") then b
    else if a == "" || EndsWith(a, "/") then a + b
    else a + "/" + b
  }

  /** Joining a plain file name onto any directory gives back that name as basename. */
  lemma BasenameOfJoin(a: string, b: string)
    requires '/' !in b && |b| > 0
    ensures Basename(Join(a, b)) == b
  {
    if a == "" || EndsWith(a, "/") {
      var p := a + b;
      assert p[|p| - |b|..] == b;
      assert |p| != |b| ==> p[|p| - |b| - 1] == a[|a| - 1];
      BasenameOfSuffix(p, b);
    } else {
      var p := a + "/" + b;
      assert p[|p| - |b|..] == b;
      assert p[|p| - |b| - 1] == '/';
      BasenameOfSuffix(p, b);
    }
  }

  /** `s.replace(".tif", ".vrt")`: every occurrence, scanned left to right. */
  function ReplaceTif(s: string): (r: string)
    ensures |r| == |s|
  {
    if |s| == 0 then ""
    else if TifAt(s, 0) then ".vrt" + ReplaceTif(s[4..])
    else [s[0]] + ReplaceTif(s[1..])
  }

  /** ".tif" occurs in `s` at position `j`. */
  predicate TifAt(s: string, j: int) {
    0 <= j && j + 4 <= |s| && s[j] == '.' && s[j + 1] == 't' && s[j + 2] == 'i' && s[j + 3] == 'f'
  }

  /** ".vrt" occurs in `s` at position `j`. */
  predicate VrtAt(s: string, j: int) {
    0 <= j && j + 4 <= |s| && s[j] == '.' && s[j + 1] == 'v' && s[j + 2] == 'r' && s[j + 3] == 't'
  }

  /** The letters of ".tif" that the replacement turns into those of ".vrt". */
  predicate Rewritten(c: char, d: char) {
    (c == 't' && d == 'v') || (c == 'i' && d == 'r') || (c == 'f' && d == 't')
  }

  /**
   * The replacement changes characters only by turning the letters of a
   * ".tif" into those of ".vrt"; the first character always stays.
   */
  lemma {:induction false} ReplaceTifPointwise(s: string)
    ensures |s| > 0 ==> ReplaceTif(s)[0] == s[0]
    ensures forall i :: 0 <= i < |s| && ReplaceTif(s)[i] != s[i] ==> Rewritten(s[i], ReplaceTif(s)[i])
  {
    if |s| > 0 {
      var r := ReplaceTif(s);
      if TifAt(s, 0) {
        var t := s[4..];
        ReplaceTifPointwise(t);
        assert r == ".vrt" + ReplaceTif(t);
        forall i | 4 <= i < |s| && r[i] != s[i] ensures Rewritten(s[i], r[i]) {
          assert r[i] == ReplaceTif(t)[i - 4] && s[i] == t[i - 4];
        }
      } else {
        var t := s[1..];
        ReplaceTifPointwise(t);
        assert r == [s[0]] + ReplaceTif(t);
        forall i | 1 <= i < |s| && r[i] != s[i] ensures Rewritten(s[i], r[i]) {
          assert r[i] == ReplaceTif(t)[i - 1] && s[i] == t[i - 1];
        }
      }
    }
  }

  /** A character the replacement changes lies inside an occurrence of ".tif": every other character is kept. */
  lemma {:induction false} ReplaceTifKeepsOthers(s: string, i: int)
    requires 0 <= i < |s| && ReplaceTif(s)[i] != s[i]
    ensures exists j :: TifAt(s, j) && j <= i < j + 4
    decreases |s|
  {
    var r := ReplaceTif(s);
    if TifAt(s, 0) {
      if i >= 4 {
        var t := s[4..];
        assert r == ".vrt" + ReplaceTif(t);
        assert r[i] == ReplaceTif(t)[i - 4] && s[i] == t[i - 4];
        ReplaceTifKeepsOthers(t, i - 4);
        var j :| TifAt(t, j) && j <= i - 4 < j + 4;
        assert TifAt(s, j + 4) by {
          assert s[j + 4] == t[j] && s[j + 5] == t[j + 1] && s[j + 6] == t[j + 2] && s[j + 7] == t[j + 3];
        }
      } else {
        assert TifAt(s, 0) && 0 <= i < 4;
      }
    } else {
      var t := s[1..];
      assert r == [s[0]] + ReplaceTif(t);
      assert i != 0;
      assert r[i] == ReplaceTif(t)[i - 1] && s[i] == t[i - 1];
      ReplaceTifKeepsOthers(t, i - 1);
      var j :| TifAt(t, j) && j <= i - 1 < j + 4;
      assert TifAt(s, j + 1) by {
        assert s[j + 1] == t[j] && s[j + 2] == t[j + 1] && s[j + 3] == t[j + 2] && s[j + 4] == t[j + 3];
      }
    }
  }

  /** Every ".tif" of `s` becomes ".vrt" at the same position. */
  lemma {:induction false} ReplaceTifEveryOccurrence(s: string, j: int)
    requires TifAt(s, j)
    ensures VrtAt(ReplaceTif(s), j)
    decreases |s|
  {
    var r := ReplaceTif(s);
    if TifAt(s, 0) {
      // ".tif" holds no second '.', so no occurrence starts inside the first one
      var t := s[4..];
      assert r == ".vrt" + ReplaceTif(t);
      if j >= 4 {
        ReplaceTifEveryOccurrence(t, j - 4);
        ShiftedWindow(r, ".vrt", ReplaceTif(t), j);
      }
    } else {
      assert j != 0;
      var t := s[1..];
      assert r == [s[0]] + ReplaceTif(t);
      ReplaceTifEveryOccurrence(t, j - 1);
      ShiftedWindow(r, [s[0]], ReplaceTif(t), j);
    }
  }

  /** No ".tif" is left in the result. */
  lemma {:induction false} ReplaceTifLeavesNone(s: string, j: int)
    ensures !TifAt(ReplaceTif(s), j)
    decreases |s|
  {
    if |s| > 0 {
      var r := ReplaceTif(s);
      if TifAt(s, 0) {
        var t := s[4..];
        assert r == ".vrt" + ReplaceTif(t);
        if j >= 4 {
          ReplaceTifLeavesNone(t, j - 4);
          ShiftedWindow(r, ".vrt", ReplaceTif(t), j);
        }
      } else {
        var t := s[1..];
        var rt := ReplaceTif(t);
        assert r == [s[0]] + rt;
        if j >= 1 {
          ReplaceTifLeavesNone(t, j - 1);
          ShiftedWindow(r, [s[0]], rt, j);
        } else if |s| >= 4 {
          // the letters after the first stay or become those of ".vrt", none of which is 'i' or 'f'
          ReplaceTifPointwise(t);
          assert r[1] == rt[0] == t[0] == s[1];
          assert r[2] == rt[1] && t[1] == s[2] && r[3] == rt[2] && t[2] == s[3];
        }
      }
    }
  }

  /** A path that ends in ".tif" is rewritten to one that ends in ".vrt". */
  lemma ReplaceTifSuffix(s: string)
    requires EndsWith(s, ".tif")
    ensures EndsWith(ReplaceTif(s), ".vrt")
  {
    var j := |s| - 4;
    assert s[j..][0] == s[j] && s[j..][1] == s[j + 1] && s[j..][2] == s[j + 2] && s[j..][3] == s[j + 3];
    ReplaceTifEveryOccurrence(s, j);
    var r := ReplaceTif(s);
    assert r[j..][0] == r[j] && r[j..][1] == r[j + 1] && r[j..][2] == r[j + 2] && r[j..][3] == r[j + 3];
  }

  /** The replacement never reaches across a '/': directories are rewritten on their own. */
  lemma {:induction false} ReplaceTifSplits(a: string, b: string)
    ensures ReplaceTif(a + "/" + b) == ReplaceTif(a) + "/" + ReplaceTif(b)
  {
    if |a| == 0 {
      var s := a + "/" + b;
      assert s[0] == '/' && s[1..] == b;
    } else if TifAt(a, 0) {
      ReplaceTifSplits(a[4..], b);
      ReplaceTifSplitsAfterTif(a, b);
    } else {
      ReplaceTifSplits(a[1..], b);
      ReplaceTifSplitsAfterChar(a, b);
    }
  }

  /** The inductive step of `ReplaceTifSplits` when `a` starts with ".tif". */
  lemma ReplaceTifSplitsAfterTif(a: string, b: string)
    requires TifAt(a, 0)
    requires ReplaceTif(a[4..] + "/" + b) == ReplaceTif(a[4..]) + "/" + ReplaceTif(b)
    ensures ReplaceTif(a + "/" + b) == ReplaceTif(a) + "/" + ReplaceTif(b)
  {
    var s := a + "/" + b;
    assert TifAt(s, 0) by {
      assert s[0] == a[0] && s[1] == a[1] && s[2] == a[2] && s[3] == a[3];
    }
    assert s[4..] == a[4..] + "/" + b;
    assert ReplaceTif(s) == ".vrt" + ReplaceTif(s[4..]);
    AppendAssoc(".vrt", ReplaceTif(a[4..]), "/");
    AppendAssoc(".vrt", ReplaceTif(a[4..]) + "/", ReplaceTif(b));
  }

  /** The inductive step of `ReplaceTifSplits` when `a` does not start with ".tif". */
  lemma ReplaceTifSplitsAfterChar(a: string, b: string)
    requires |a| > 0 && !TifAt(a, 0)
    requires ReplaceTif(a[1..] + "/" + b) == ReplaceTif(a[1..]) + "/" + ReplaceTif(b)
    ensures ReplaceTif(a + "/" + b) == ReplaceTif(a) + "/" + ReplaceTif(b)
  {
    var s := a + "/" + b;
    // the '/' after `a` cannot be part of a ".tif" at the front
    assert !TifAt(s, 0) by {
      assert s[|a|] == '/';
      assert forall k :: 0 <= k < |a| ==> s[k] == a[k];
    }
    assert s[1..] == a[1..] + "/" + b;
    AppendAssoc([a[0]], ReplaceTif(a[1..]), "/");
    AppendAssoc([a[0]], ReplaceTif(a[1..]) + "/", ReplaceTif(b));
  }

  /** A four-letter window of `c + x` past `c` is the window of `x` shifted by `|c|`. */
  lemma ShiftedWindow(r: string, c: string, x: string, j: int)
    requires r == c + x && |c| <= j
    ensures j + 4 <= |r| ==> r[j] == x[j - |c|] && r[j + 1] == x[j - |c| + 1] && r[j + 2] == x[j - |c| + 2] && r[j + 3] == x[j - |c| + 3]
  {
  }
}

=== FILE: seqs.dfy ===
/** Facts about sequences shared by the row-by-row tables. */
module Seqs {

  /** Concatenation regroups freely. */
  lemma AppendAssoc<T>(p: seq<T>, q: seq<T>, x: seq<T>)
    ensures (p + q) + x == p + (q + x)
  {
  }
}

=== FILE: smart_merge.dfy ===
/**
 * Metadata fusion (`src/pipeline/smart_merge.py`, `run`): index the DJI image
 * files by the numeric ID in their names, then join the MRK marker rows against
 * that index in row order, reading the platform attitude out of each matched file.
 *
 * Globbing, the file system, CSV reading and writing and the formatting of
 * timestamps are outside the model; what they deliver is passed in as values.
 */
module SmartMerge {
  import opened Wrappers
  import opened Seqs
  import opened PathText
  import opened FileIndex
  import opened AttitudeTags

  /** The indexing loop of `run`. */
  method BuildIndex(allFiles: seq<string>) returns (idToFile: map<int, string>)
    ensures idToFile == IndexSpec(allFiles)
  {
    idToFile := map[];
    var i := 0;
    while i < |allFiles|
      invariant 0 <= i <= |allFiles|
      invariant idToFile == IndexSpec(allFiles[..i])
    {
      var fp := allFiles[i];
      ghost var before := allFiles[..i];
      assert allFiles[..i + 1] == before + [fp];
      // `Scan` reads the ID off the name; `Insert` is the guarded assignment
      idToFile := Insert(idToFile, Scan(fp));
      IndexSpecSnoc(before, fp);
      i := i + 1;
    }
    assert allFiles[..i] == allFiles;
  }

  /** A row of the MRK table as `iterrows` presents it: every column upcast to float. */
  datatype MrkRow = MrkRow(id: real, timestamp: real, lat: real, lon: real, altitude: real)

  /** One output record (the formatted `DateTimeOriginal` text is not modelled). */
  datatype MergedRow = MergedRow(
    filename: string, fullPath: string,
    lat: real, lon: real, altitude: real,
    pitch: real, roll: real, yaw: real,
    droneTimeMs: real)

  /** Python's `int(x)` on a float: truncation toward zero. */
  function TruncToInt(x: real): (r: int)
    ensures 0.0 <= x ==> r as real <= x < r as real + 1.0
    ensures x < 0.0 ==> r as real - 1.0 < x <= r as real
  {
    if x >= 0.0 then x.Floor else -((-x).Floor)
  }

  function MarkerId(row: MrkRow): int {
    TruncToInt(row.id)
  }

  /** The output record for a matched row, given its path and the attitude read from that file. */
  function MergeRow(row: MrkRow, path: string, att: Attitude): MergedRow
  {
    MergedRow(Basename(path), path, row.lat, row.lon, row.altitude, att.pitch, att.roll, att.yaw, row.timestamp * 1000.0)
  }

  /** What the loop learns from opening a path: the attitude in the file's stored bytes. */
  function Reader(store: map<string, seq<byte>>, parse: seq<byte> -> Option<real>): string -> Attitude
  {
    p => FileAttitude(store, p, parse)
  }

  /** The output after the join loop has visited every row of `mrk`, reading attitudes with `read`. */
  function JoinSpec(mrk: seq<MrkRow>, table: map<int, string>, read: string -> Attitude): seq<MergedRow>
  {
    if mrk == [] then []
    else
      var prev := JoinSpec(mrk[..|mrk| - 1], table, read);
      var row := mrk[|mrk| - 1];
      prev + JoinStep(row, table, read)
  }

  /** What one MRK row contributes: its record when its ID is indexed, nothing otherwise. */
  function JoinStep(row: MrkRow, table: map<int, string>, read: string -> Attitude): seq<MergedRow>
  {
    if MarkerId(row) in table then [MergeRow(row, table[MarkerId(row)], read(table[MarkerId(row)]))] else []
  }

  /** The MRK rows whose ID is in the index, in their original order. */
  function Matched(mrk: seq<MrkRow>, table: map<int, string>): (r: seq<MrkRow>)
    ensures |r| <= |mrk|
    ensures forall k :: 0 <= k < |r| ==> r[k] in mrk && MarkerId(r[k]) in table
    ensures forall i :: 0 <= i < |mrk| && MarkerId(mrk[i]) in table ==> mrk[i] in r
  {
    if mrk == [] then []
    else
      var init := mrk[..|mrk| - 1];
      var row := mrk[|mrk| - 1];
      assert forall i :: 0 <= i < |init| ==> init[i] == mrk[i];
      Matched(init, table) + (if MarkerId(row) in table then [row] else [])
  }

  /** The join loop of `run`. */
  method JoinMarkers(mrk: seq<MrkRow>, idToFile: map<int, string>, store: map<string, seq<byte>>, parse: seq<byte> -> Option<real>)
    returns (outputRows: seq<MergedRow>)
    ensures outputRows == JoinSpec(mrk, idToFile, Reader(store, parse))
  {
    ghost var read := Reader(store, parse);
    outputRows := [];
    var i := 0;
    while i < |mrk|
      invariant 0 <= i <= |mrk|
      invariant outputRows == JoinSpec(mrk[..i], idToFile, read)
    {
      var row := mrk[i];
      var fid := TruncToInt(row.id);
      ghost var before := mrk[..i];
      assert mrk[..i + 1] == before + [row];
      JoinSnoc(before, row, idToFile, read);
      if fid in idToFile {
        var fp := idToFile[fid];
        var att := FileAttitude(store, fp, parse);
        assert att == read(fp);
        outputRows := outputRows + [MergedRow(Basename(fp), fp, row.lat, row.lon, row.altitude,
                                              att.pitch, att.roll, att.yaw, row.timestamp * 1000.0)];
      }
      i := i + 1;
    }
    assert mrk[..i] == mrk;
  }

  /** Visiting one more row appends its record exactly when its ID is indexed. */
  lemma JoinSnoc(mrk: seq<MrkRow>, row: MrkRow, table: map<int, string>, read: string -> Attitude)
    ensures JoinSpec(mrk + [row], table, read) == JoinSpec(mrk, table, read) + JoinStep(row, table, read)
  {
    assert (mrk + [row])[..|mrk|] == mrk;
  }

  /** The join works row by row: the output for `a + b` is the output for `a` followed by that for `b`. */
  lemma {:induction false} JoinAppend(a: seq<MrkRow>, b: seq<MrkRow>, table: map<int, string>, read: string -> Attitude)
    ensures JoinSpec(a + b, table, read) == JoinSpec(a, table, read) + JoinSpec(b, table, read)
  {
    if b == [] {
      assert a + b == a;
    } else {
      var init, last := b[..|b| - 1], b[|b| - 1];
      assert b == init + [last];
      JoinAppend(a, init, table, read);
      AppendAssoc(a, init, [last]);
      JoinSnoc(a + init, last, table, read);
      JoinSnoc(init, last, table, read);
      var p, q, x := JoinSpec(a, table, read), JoinSpec(init, table, read), JoinStep(last, table, read);
      AppendAssoc(p, q, x);
    }
  }

  /** The filter keeps order and multiplicity: filtering `a + b` filters `a`, then `b`. */
  lemma {:induction false} MatchedAppend(a: seq<MrkRow>, b: seq<MrkRow>, table: map<int, string>)
    ensures Matched(a + b, table) == Matched(a, table) + Matched(b, table)
    decreases |b|
  {
    if b == [] {
      assert a + b == a;
    } else {
      var init, last := b[..|b| - 1], b[|b| - 1];
      assert (a + b)[..|a + b| - 1] == a + init && (a + b)[|a + b| - 1] == last;
      MatchedAppend(a, init, table);
      var x := if MarkerId(last) in table then [last] else [];
      AppendAssoc(Matched(a, table), Matched(init, table), x);
    }
  }

  /**
   * Output rows correspond one to one, in MRK order, to the matched MRK rows;
   * each carries the basename and path the index holds for its ID, the marker
   * position, the timestamp in milliseconds and the attitude read from its file.
   */
  lemma {:induction false} JoinRows(mrk: seq<MrkRow>, table: map<int, string>, read: string -> Attitude)
    ensures |JoinSpec(mrk, table, read)| == |Matched(mrk, table)|
    ensures forall k :: 0 <= k < |Matched(mrk, table)| ==>
      var row := Matched(mrk, table)[k];
      var out := JoinSpec(mrk, table, read)[k];
      && out.fullPath == table[MarkerId(row)]
      && out.filename == Basename(out.fullPath)
      && out.droneTimeMs == row.timestamp * 1000.0
      && out.lat == row.lat && out.lon == row.lon && out.altitude == row.altitude
      && out.roll == read(out.fullPath).roll && out.pitch == read(out.fullPath).pitch
      && out.yaw == read(out.fullPath).yaw
      && out == MergeRow(row, table[MarkerId(row)], read(table[MarkerId(row)]))
  {
    if mrk != [] {
      var init := mrk[..|mrk| - 1];
      var row := mrk[|mrk| - 1];
      assert mrk == init + [row];
      JoinRows(init, table, read);
      JoinSnoc(init, row, table, read);
    }
  }

  /**
   * `run`: nothing is produced when the MRK file is missing; otherwise the index
   * is built from the globbed paths and the MRK rows are joined against it.
   */
  method Run(mrkExists: bool, allFiles: seq<string>, mrk: seq<MrkRow>, store: map<string, seq<byte>>, parse: seq<byte> -> Option<real>)
    returns (output: Option<seq<MergedRow>>)
    ensures !mrkExists ==> output == None
    ensures mrkExists ==> output == Some(JoinSpec(mrk, IndexSpec(allFiles), Reader(store, parse)))
  {
    if !mrkExists {
      return None;
    }
    var idToFile := BuildIndex(allFiles);
    var rows := JoinMarkers(mrk, idToFile, store, parse);
    return Some(rows);
  }
}

=== FILE: wrappers.dfy ===
/** The "value or exception" results of the source: `None` stands for a raised error. */
module Wrappers {

  datatype Option<+T> = None | Some(value: T)
}
